=== FILE: README.md ===
# Minimum spanning trees: Prim, Kruskal and their comparison

This Dafny project models the core of a small Java program that computes
a minimum spanning tree of one input graph twice, once with Prim's
algorithm and once with Kruskal's, and compares the two results:

- `Edges`: the edge value (`from`, `to`, Java `int` weight) and the static
  `connects` test.
- `GraphData`: the input graph record and its two validators,
  `validateEdges` and `hasDuplicateEdges`.
- `DisjointSet`: Kruskal's union-find structure. It keeps two maps,
  `parent` and `rank`, and an `operations` counter. `find` does path
  compression and `union` links by rank.
- `Kruskal`: `runKruskal`. It stable-sorts the edges by weight and keeps
  each edge whose endpoints have different roots.
- `Prim`: `runPrim` and its helpers:
  - the adjacency map, which files every edge under both endpoints;
  - the start node;
  - `processEdge`;
  - the polling loop over a min-priority queue with lazy discard of stale
    edges.
- `Comparison`: `compareMSTs` and `convertEdges`. `compareMSTs` is the
  validation gate, the duplicate warning, the two runs on copies, the
  statistics map and the summary line. `OutputGraph` and `Result` become
  immutable datatypes (`OutputGraph`, `Results.MstResult`) without the
  wall-clock field.

Supporting modules:

- `JavaInt` writes out Java's 32-bit `int` wrap-around. Weights and total
  costs are `Int32`, and a running total is proved to be the wrapped
  mathematical sum.
- `Decimal` models the decimal rendering of an `int` that string
  concatenation performs, with its inverse.
- `Components` is an independent reference for Kruskal's cycle test: a
  quick-find labelling of the vertices, and the greedy edge choice that
  labelling drives. The union-find structure is proved to represent
  exactly that labelling's partition at every step.
- `StableSort` is a stable insertion sort by weight. It is proved to be
  the only sequence that is sorted by weight and keeps the input order
  among equal weights.

Vertices are a type parameter `V` with equality. The Java code uses vertex
strings only through `equals` and `hashCode`. The priority queue is a
multiset, and `poll` may return any edge of minimum weight. Adjacency
lists and the visited set are a map of sequences and a set.

## Model

| member | source | states |
|---|---|---|
| Edges.Connects | src/main/java/org/example/Edge.java:59-63 | `connects(e, x, y)` holds exactly when the unordered pair {x, y} is {from, to} |
| Edges.ConnectsSymmetric | src/main/java/org/example/Edge.java:59-63 | swapping the two vertices never changes `connects` |
| Edges.ConnectsOwnEndpoints | src/main/java/org/example/Edge.java:61-62 | an edge connects its own endpoints in both orders |
| Edges.ConnectsIgnoresWeight | src/main/java/org/example/Edge.java:59-63 | changing the weight never changes `connects` |
| JavaInt.Wrap | src/main/java/org/example/Prim.java:119 | the Java `int` for x: in `int` range, congruent to x modulo 2^32, and x itself when x fits |
| Edges.CostAppend | src/main/java/org/example/Kruskal.java:36 | adding one more weight to a Java `int` total that equals the wrapped sum gives the wrapped sum of the longer list |
| JavaInt.WrapAdd | src/main/java/org/example/Prim.java:119 | wrapping after each `int` addition equals wrapping the mathematical sum once |
| GraphData.ValidateEdges | src/main/java/org/example/GraphData.java:43-54 | true iff every edge has both endpoints in `nodes`; true on an empty edge list |
| GraphData.ValidateEdgesSplit | src/main/java/org/example/GraphData.java:47-52 | validity of a concatenation is the conjunction of both parts' validity, so one bad edge anywhere makes the result false |
| GraphData.HasDuplicateEdges | src/main/java/org/example/GraphData.java:61-74 | returns true iff some pair i < j of edges joins the same unordered pair of vertices; false on at most one edge |
| GraphData.ReversedIsDuplicate | src/main/java/org/example/GraphData.java:66 | in any edge list, an edge listed after a reversed copy of an earlier edge, with any weight, makes the list a duplicate-holding one |
| DisjointSet.Init | src/main/java/org/example/Kruskal.java:62-67 | every listed vertex is its own parent and root with rank 0, no other key exists, and the counter is 0 |
| DisjointSet.Find | src/main/java/org/example/Kruskal.java:76-83 | returns the root of `v` (a vertex that is its own parent) and leaves `v` pointing at it; ranks are unchanged; exactly the vertices on the walk from `v` to its root are re-pointed at it and every other parent is unchanged; the counter grows by one per call including the recursive ones |
| DisjointSet.FindKeepsRoots | src/main/java/org/example/Kruskal.java:78-82 | after path compression every vertex still has the same root, so the partition is unchanged |
| DisjointSet.CompressedRoot | src/main/java/org/example/Kruskal.java:78-82 | re-pointing vertices at their roots preserves every root |
| DisjointSet.Link | src/main/java/org/example/Kruskal.java:96-106 | the lower-rank root goes under the higher-rank one; on a tie the second root goes under the first and only the first root's rank rises by 1; equal roots change no root and no rank; exactly one parent entry changes, the losing root's, which now points at the winning root |
| DisjointSet.Union | src/main/java/org/example/Kruskal.java:92-107 | the classes of u and v end with one common root (the higher-rank root, u's on a tie); every other vertex keeps its root; the rank rule above; the counter grows by exactly 3 plus the depth of u plus the depth of v after the first find, which is at most 3 plus both original depths; the losing root now points at the winning root, and no parent changes except on the two walks of the finds and at the losing root |
| Kruskal.FindAgrees | src/main/java/org/example/Kruskal.java:76-83 | `find` keeps the union-find structure in agreement with the reference labelling's partition |
| Kruskal.UnionAgrees | src/main/java/org/example/Kruskal.java:92-107 | `union(u, v)` merges exactly the classes that scanning an edge from u to v merges in the reference labelling |
| Kruskal.CycleTest | src/main/java/org/example/Kruskal.java:32 | the two counted finds report the endpoints apart iff their roots differ, and keep every root |
| Kruskal.ScanEdge | src/main/java/org/example/Kruskal.java:29-37 | one loop iteration keeps the union-find in agreement with the labelling; the kept edges are the reference choice; the total is their wrapped sum |
| Kruskal.RunKruskal | src/main/java/org/example/Kruskal.java:20-46 | the result is the reference greedy choice over the stable sort by weight; it is sorted, a sub-multiset of the input and a forest; it has at most the number of distinct vertices minus 1 edges (none without vertices); it joins the endpoints of every input edge; its cost is the wrapped weight sum; the count is at least 3 per edge plus 3 per kept edge; all of this is bundled as `Kruskal.KruskalTree` |
| Kruskal.KruskalSpans | src/main/java/org/example/Kruskal.java:25-38 | the chosen edges alone join the endpoints of every input edge |
| Kruskal.ChosenSorted | src/main/java/org/example/Kruskal.java:25-38 | edges kept in scan order from a sorted list are sorted |
| Kruskal.SortedValid | src/main/java/org/example/Kruskal.java:25 | sorting keeps a valid edge list valid |
| StableSort.SortByWeight | src/main/java/org/example/Kruskal.java:25 | the result is sorted by weight, a permutation of the input, and keeps the input order within each weight |
| StableSort.SortUnique | src/main/java/org/example/Kruskal.java:25 | every sequence sorted by weight that keeps the input order within each weight equals `SortByWeight` |
| Components.MergeJoins | src/main/java/org/example/Kruskal.java:34 | after merging, two vertices share a label iff they did before or lay one in each merged class |
| Components.ChosenLabels | src/main/java/org/example/Kruskal.java:31-37 | the kept edges alone produce the same partition as all scanned edges |
| Components.ChosenIsForest | src/main/java/org/example/Kruskal.java:31-35 | every kept edge joins two different components of the edges kept before it |
| Components.ChosenCount | src/main/java/org/example/Kruskal.java:31-35 | the kept edges plus the remaining classes number the distinct vertices |
| Components.ChosenBound | src/main/java/org/example/Kruskal.java:31-35 | at most the number of distinct vertices minus 1 edges are kept; none when there is no vertex |
| Components.LabelsSpan | src/main/java/org/example/Kruskal.java:29-38 | after scanning, both endpoints of every scanned edge share a label |
| Components.MergeClasses | src/main/java/org/example/Kruskal.java:34 | merging two different classes removes exactly one class |
| Prim.IncidentMembers | src/main/java/org/example/Prim.java:77-81 | `adj[v]` holds exactly the input edges leaving v and the reversals of the input edges entering v |
| Prim.IncidentArcs | src/main/java/org/example/Prim.java:79-80 | with valid edges every arc in `adj[v]` has `from == v` and leads to a listed vertex |
| Prim.BuildAdjacency | src/main/java/org/example/Prim.java:69-83 | one key per listed vertex; each list is the edges at that vertex, oriented away from it, in input order |
| Prim.IncidentAdjacency | src/main/java/org/example/Prim.java:69-83 | every input edge is filed under its `from` and, reversed, under its `to`, and nothing else is filed |
| Prim.SelectStartNode | src/main/java/org/example/Prim.java:92-94 | the first listed vertex; absent exactly when the list is empty |
| Prim.ProcessEdge | src/main/java/org/example/Prim.java:109-131 | the `connects` guard never rejects: the edge is appended, its weight added with `int` wrap-around, its destination visited, and exactly the arcs of the new vertex toward unvisited vertices queued |
| Prim.Pushed | src/main/java/org/example/Prim.java:125-129 | the arcs queued from the new vertex are exactly its arcs toward unvisited vertices, each as often as it is listed; the `connects` test rejects none of them |
| Prim.ProcessCost | src/main/java/org/example/Prim.java:118-119 | after an accepted edge the total is still the wrapped sum of the accepted edges |
| Prim.MinimumExists | src/main/java/org/example/Prim.java:35-44 | a non-empty queue has an edge of minimum weight to poll |
| Prim.StartSearching | src/main/java/org/example/Prim.java:37-40 | the state after visiting the start node and queueing its list satisfies the loop invariant |
| Prim.DiscardKeeps | src/main/java/org/example/Prim.java:48 | discarding a polled edge to a visited vertex keeps the invariant |
| Prim.AcceptKeeps | src/main/java/org/example/Prim.java:51 | processing a polled edge to an unvisited vertex keeps the invariant |
| Prim.AcceptTree | src/main/java/org/example/Prim.java:118-122 | after acceptance the visited set is the tree's vertex set, the tree still grows one new vertex per edge, and the cost is the wrapped sum |
| Prim.AcceptQueue | src/main/java/org/example/Prim.java:124-129 | after acceptance the queue holds only arcs leaving visited vertices, and every arc from a visited to an unvisited vertex is queued |
| Prim.PollStep | src/main/java/org/example/Prim.java:43-51 | one poll removes a minimum-weight edge; it is accepted iff its destination is unvisited; a discard changes nothing else; an acceptance appends the edge, visits exactly its destination, and leaves the rest of the queue plus exactly the arcs `processEdge` pushes (`Prim.Accepted`) |
| Prim.Grow | src/main/java/org/example/Prim.java:37-52 | the loop ends with the queue empty or as many visited vertices as listed, keeping the invariant, with at least one counted poll per accepted edge |
| Prim.GrownSize | src/main/java/org/example/Prim.java:118-122 | a grown tree has exactly one vertex more than edges, so the tree has one edge fewer than there are visited vertices |
| Prim.GrownIsForest | src/main/java/org/example/Prim.java:118-122 | a tree grown one new vertex at a time is a forest in the reference sense |
| Prim.GrownLabels | src/main/java/org/example/Prim.java:118-122 | in the reference labelling the tree's vertices carry the start node's label and every other vertex is alone |
| Prim.SearchDone | src/main/java/org/example/Prim.java:43 | when the loop stops, no input edge has exactly one endpoint visited |
| Prim.PrimFinish | src/main/java/org/example/Prim.java:43-56 | on exit the tree's edges are oriented input edges between listed vertices, a forest of at most the number of distinct vertices minus 1 edges with cost their wrapped sum, and no input edge leaves the tree |
| Prim.RunPrim | src/main/java/org/example/Prim.java:22-59 | fails exactly on an empty vertex list; otherwise a tree grown from `nodes[0]` out of oriented input edges, a forest of at most the number of distinct vertices minus 1 edges, spanning the start node's component, costing the wrapped sum, and with operations at least its size; all of this is bundled as `Prim.PrimTree` |
| Decimal.Render | src/main/java/org/example/MSTComparison.java:44-46 | the rendering of an `int` is non-empty, starts with a minus sign exactly when the number is negative, and reading it back gives the number |
| Decimal.RenderInjective | src/main/java/org/example/MSTComparison.java:46 | two `int`s render the same iff they are equal |
| Comparison.Summary | src/main/java/org/example/MSTComparison.java:43-47 | the summary starts with the "identical" text iff the two costs are equal, and with the "differ" text iff they are not |
| Comparison.SummaryNamesCost | src/main/java/org/example/MSTComparison.java:44 | the "identical" line names the common cost: two such lines are equal iff their costs are |
| Comparison.SummaryNamesPrimCost | src/main/java/org/example/MSTComparison.java:46 | two equal "differ" lines name the same Prim cost and the same Kruskal cost |
| Comparison.ConvertEdges | src/main/java/org/example/MSTComparison.java:58-68 | same length; the i-th copy equals the i-th input edge field by field |
| Comparison.CompareMSTs | src/main/java/org/example/MSTComparison.java:18-50 | fails with the invalid-edge error iff validation fails, before either engine runs; a duplicate warning iff the edges are valid and some pair repeats; Prim fails only on no vertices; otherwise the id, `vertices` set to the number of listed vertices and `edges` to the number of edges, Kruskal's reference result computed from the graph's edges in their input order with every `RunKruskal` guarantee (sorted, forest, size bound, spanning, cost, operation bound), Prim's tree with every `RunPrim` guarantee (grown from the first vertex out of oriented input edges, forest, size bound, spanning, cost, operation bound), and the summary chosen by cost equality |

## Left out

- JSON reading and writing, the menu in `Main.java` and every console message: I/O. Warnings and errors are modelled as booleans and `Result` failures.
- `System.nanoTime` and `executionTimeMs`: wall-clock time and `double` arithmetic.
- Tie-breaking in `java.util.PriorityQueue` and iteration order of `HashMap`/`HashSet`: unspecified. The queue is a multiset, and `poll` picks any minimum-weight edge.
- The library's `List.sort` algorithm. It is replaced by an insertion sort that is proved to be the unique stable sort by weight.
- Full minimality of either tree (cut property, exchange argument), and therefore any claim that the two engines find the same cost.
- Vertex identifiers are a generic type with equality rather than `String`. Only `equals` and `hashCode` are used on them.
- `null` lists, `null` vertices and `null` edges: values here cannot be null. The one `null` the code produces itself, the start node of an empty vertex list, is modelled as the `NullStartNode` failure.
- Kruskal.RunKruskal: requires valid edges. On an edge to an unlisted vertex, `find` reads a missing parent and throws. `compareMSTs`, the only caller, validates first.
- Prim.RunPrim: requires valid edges. On an edge to an unlisted vertex, `buildAdjacencyList` adds to a missing list and throws. `compareMSTs` validates first.
- Kruskal.RunKruskal: the operation count is only bounded below (at least 3 per edge plus 3 per kept edge). The exact value depends on path lengths inside `find`. The counters are unbounded naturals, so Java `int` overflow of `operations` is not modelled.
- Prim.RunPrim: the operation count is only bounded below by the number of tree edges. The exact number of polls depends on queue contents and tie-breaking.
- Kruskal.RunKruskal: the Java method sorts its argument list in place (`Kruskal.java:25`), which is why `compareMSTs` hands it a copy. Here the argument is a value, so the reordering is invisible to the caller, and the copies made by `convertEdges` need no proof.
- DisjointSet.Union: when u and v are already in one class, ranks and every root are unchanged. `parent` is not unchanged in general: the two `find` calls before the equality test compress paths.
- Comparison.CompareMSTs: the Prim result is described by every guarantee of `RunPrim` (the predicate `Prim.PrimTree`), not as a single value, because `poll` is nondeterministic. Its operation count is bounded below only, as for `RunPrim`.

## Notes on the model

- The edge copies made by `buildAdjacencyList` and `convertEdges` are plain values here. No code can mutate an input edge, so the separate copies that protect each engine's input need no proof.
- The `connects` guard in `processEdge` is kept in the model. `Connects` of an edge with its own endpoints always holds, so `ProcessEdge` always appends the edge.
- When Prim's vertex list holds repeats, the loop's bound `visited.size() < nodes.size()` uses the list length. The model does the same: the loop may keep polling stale edges after every distinct vertex is visited.

=== FILE: comparison.dfy ===
/** `MSTComparison`: validate one input graph, run both engines on copies of
    its edges, and record the input statistics and a summary that compares
    the two costs. The warning `compareMSTs` prints for duplicate edges is
    returned as a flag. */
module Comparison {
  import opened Wrappers
  import opened JavaInt
  import opened Edges
  import opened GraphData
  import opened Components
  import opened StableSort
  import opened Results
  import opened Decimal
  import Kruskal
  import Prim

  /** Why `compareMSTs` throws: an edge names a vertex that is not listed
      (the explicit check), or the Prim run fails on an empty vertex list. */
  datatype CompareError = InvalidEdges(graphId: Int32) | PrimFailed(cause: Prim.PrimError)

  /** The record `OutputGraph.java`: the graph id, the input statistics map,
      each engine's result and the comparison summary. */
  datatype OutputGraph<V> = OutputGraph(
    graphId: Int32,
    inputStats: map<string, int>,
    prim: MstResult<V>,
    kruskal: MstResult<V>,
    comparisonSummary: string)

  const IdenticalLead: string := "MST total cost is identical ("
  const IdenticalTail: string := "). Structures may differ."
  const DifferLead: string := "MST costs differ: Prim = "
  const DifferMiddle: string := ", Kruskal = "

  /** The summary line for the Prim cost `p` and the Kruskal cost `k`: the
      "identical" line exactly when the costs are equal and the "differ"
      line exactly when they are not. */
  function Summary(p: Int32, k: Int32): (s: string)
    ensures |s| > 4
    ensures IdenticalLead <= s <==> p == k
    ensures DifferLead <= s <==> p != k
  {
    if p == k then
      var rest := Render(p) + IdenticalTail;
      Leads(IdenticalLead, DifferLead, rest);
      IdenticalLead + rest
    else
      var rest := Render(p) + (DifferMiddle + Render(k));
      Leads(DifferLead, IdenticalLead, rest);
      DifferLead + rest
  }

  /** A line that starts with one of the two leads does not start with the
      other: they part at their fifth character. */
  lemma Leads(lead: string, other: string, rest: string)
    requires (lead == IdenticalLead && other == DifferLead) || (lead == DifferLead && other == IdenticalLead)
    ensures lead <= lead + rest && !(other <= lead + rest)
  {
    assert IdenticalLead[4] == 't' && DifferLead[4] == 'c';
    PrefixAppend(lead, rest);
    AppendAt(lead, rest, 4);
  }

  /** A sequence is a prefix of itself extended. */
  lemma PrefixAppend(a: string, b: string)
    ensures a <= a + b
  {
    assert (a + b)[..|a|] == a;
  }

  /** The "identical" summary names the shared cost: different costs give
      different lines. */
  lemma SummaryNamesCost(p: Int32, q: Int32)
    ensures Summary(p, p) == Summary(q, q) <==> p == q
  {
    if Summary(p, p) == Summary(q, q) {
      var s := Summary(p, p);
      var a := |IdenticalLead|;
      assert s[a..|s| - |IdenticalTail|] == Render(p);
      assert Summary(q, q)[a..|s| - |IdenticalTail|] == Render(q);
      RenderInjective(p, q);
    }
  }

  /** The "differ" summary names the Prim cost right after its lead and the
      Kruskal cost after that: equal lines name equal costs. */
  lemma SummaryNamesPrimCost(p: Int32, k: Int32, p': Int32, k': Int32)
    requires p != k && p' != k'
    requires Summary(p, k) == Summary(p', k')
    ensures p == p'
    ensures k == k'
  {
    var n, n' := Render(p), Render(p');
    var t, t' := DifferMiddle + Render(k), DifferMiddle + Render(k');
    DropPrefix(DifferLead, n + t, n' + t');
    RenderStop(n, n', t, t');
    RenderInjective(p, p');
    DropPrefix(n, t, t');
    DropPrefix(DifferMiddle, Render(k), Render(k'));
    RenderInjective(k, k');
  }

  /** Equal texts with a common head have equal tails. */
  lemma DropPrefix(x: string, y: string, z: string)
    requires x + y == x + z
    ensures y == z
  {
    assert y == (x + y)[|x|..];
    assert z == (x + z)[|x|..];
  }

  /** A rendered number followed by text starting with a comma can be read
      off unambiguously: a rendering holds no comma. */
  lemma RenderStop(n: string, n': string, t: string, t': string)
    requires forall i :: 0 <= i < |n| ==> n[i] != ','
    requires forall i :: 0 <= i < |n'| ==> n'[i] != ','
    requires |t| > 0 && t[0] == ',' && |t'| > 0 && t'[0] == ','
    requires n + t == n' + t'
    ensures n == n'
  {
    if |n| < |n'| {
      AppendAt(n, t, |n|);
      AppendAt(n', t', |n|);
      assert false;
    } else if |n'| < |n| {
      AppendAt(n, t, |n'|);
      AppendAt(n', t', |n'|);
      assert false;
    }
    assert n == (n + t)[..|n|];
    assert n' == (n' + t')[..|n|];
  }

  /** Indexing a concatenation. */
  lemma AppendAt(a: string, b: string, k: int)
    ensures 0 <= k < |a| ==> (a + b)[k] == a[k]
    ensures k == |a| && |b| > 0 ==> (a + b)[k] == b[0]
  {
  }

  /** `convertEdges`: a fresh copy of every edge, field by field, in order. */
  method ConvertEdges<V>(edges: seq<Edge<V>>) returns (converted: seq<Edge<V>>)
    ensures |converted| == |edges|
    ensures forall i :: 0 <= i < |edges| ==>
              converted[i].from == edges[i].from && converted[i].to == edges[i].to && converted[i].weight == edges[i].weight
  {
    converted := [];
    var i := 0;
    while i < |edges|
      invariant 0 <= i <= |edges|
      invariant |converted| == i
      invariant forall k :: 0 <= k < i ==>
                  converted[k].from == edges[k].from && converted[k].to == edges[k].to && converted[k].weight == edges[k].weight
    {
      var e := edges[i];
      converted := converted + [Edge(e.from, e.to, e.weight)];
      i := i + 1;
    }
  }

  /** `compareMSTs`: reject a graph with an edge to an unlisted vertex before
      either engine runs; flag duplicate edges without stopping; run Prim,
      then Kruskal, each on its own copy of the edges; record the vertex and
      edge counts; and choose the summary by comparing the two costs. */
  method CompareMSTs<V(==,!new)>(g: Graph<V>) returns (r: Result<OutputGraph<V>, CompareError>, warned: bool)
    ensures r == Failure(InvalidEdges(g.id)) <==> !ValidateEdges(g.nodes, g.edges)
    ensures r.Failure? <==> !ValidateEdges(g.nodes, g.edges) || |g.nodes| == 0
    ensures warned <==> ValidateEdges(g.nodes, g.edges) && Duplicated(g.edges)
    ensures r.Success? ==> r.value.graphId == g.id
    ensures r.Success? ==> r.value.inputStats == map["vertices" := |g.nodes|, "edges" := |g.edges|]
    ensures r.Success? ==>
              ValidateEdges(g.nodes, SortByWeight(g.edges)) && r.value.kruskal.mstEdges == Chosen(g.nodes, SortByWeight(g.edges))
    ensures r.Success? ==> r.value.kruskal.totalCost == Wrap(WeightSum(r.value.kruskal.mstEdges))
    ensures r.Success? ==> Kruskal.KruskalTree(g.nodes, g.edges, r.value.kruskal)
    ensures r.Success? ==> Prim.GrownFrom(g.nodes[0], r.value.prim.mstEdges)
    ensures r.Success? ==> Prim.PrimTree(g.nodes, g.edges, r.value.prim)
    ensures r.Success? ==> r.value.prim.totalCost == Wrap(WeightSum(r.value.prim.mstEdges))
    ensures r.Success? ==>
              (IdenticalLead <= r.value.comparisonSummary <==> r.value.prim.totalCost == r.value.kruskal.totalCost)
    ensures r.Success? ==> r.value.comparisonSummary == Summary(r.value.prim.totalCost, r.value.kruskal.totalCost)
  {
    if !ValidateEdges(g.nodes, g.edges) {
      return Failure(InvalidEdges(g.id)), false;
    }
    warned := HasDuplicateEdges(g.edges);
    var primEdges := ConvertEdges(g.edges);
    assert primEdges == g.edges;
    var primRun := Prim.RunPrim(g.nodes, primEdges);
    if primRun.Failure? {
      return Failure(PrimFailed(primRun.error)), warned;
    }
    var kruskalEdges := ConvertEdges(g.edges);
    assert kruskalEdges == g.edges;
    var kruskalRun := Kruskal.RunKruskal(g.nodes, kruskalEdges);
    var p := primRun.value;
    var stats := map["vertices" := |g.nodes|, "edges" := |g.edges|];
    r := Success(OutputGraph(g.id, stats, p, kruskalRun, Summary(p.totalCost, kruskalRun.totalCost)));
  }
}

=== FILE: components.dfy ===
/** The reference meaning of Kruskal's cycle test, independent of any
    union-find structure: a quick-find labelling of the vertices in which two
    vertices share a label exactly when the edges scanned so far join their
    components, and the greedy edge choice that labelling drives. */
module Components {
  import opened Edges
  import opened GraphData

  /** Every listed vertex labelled by itself: no edge scanned yet. */
  function Singletons<V(==,!new)>(nodes: seq<V>): (l: map<V, V>)
    ensures forall x :: x in l <==> x in nodes
    ensures forall x :: x in l ==> l[x] == x
  {
    map v | v in nodes :: v
  }

  /** Scanning an edge from `a` to `b`: every vertex labelled like `b` takes
      the label of `a`, joining the two components. */
  function Merge<V(==,!new)>(l: map<V, V>, a: V, b: V): (m: map<V, V>)
    requires a in l && b in l
    ensures forall x :: x in m <==> x in l
    ensures m[a] == m[b]
  {
    map x | x in l :: if l[x] == l[b] then l[a] else l[x]
  }

  /** After `Merge(l, a, b)` two vertices share a label exactly when they
      shared one before, or one was labelled like `a` and the other like `b`. */
  lemma MergeJoins<V(!new)>(l: map<V, V>, a: V, b: V, x: V, y: V)
    requires a in l && b in l && x in l && y in l
    ensures var m := Merge(l, a, b);
      m[x] == m[y] <==> l[x] == l[y] || (l[x] == l[a] && l[y] == l[b]) || (l[x] == l[b] && l[y] == l[a])
  {
  }

  /** The labelling after scanning `es` in order. */
  function Labels<V(==,!new)>(nodes: seq<V>, es: seq<Edge<V>>): (l: map<V, V>)
    requires ValidateEdges(nodes, es)
    ensures forall x :: x in l <==> x in nodes
  {
    if |es| == 0 then Singletons(nodes)
    else
      var e := es[|es| - 1];
      Merge(Labels(nodes, es[..|es| - 1]), e.from, e.to)
  }

  /** The greedy choice: an edge is kept exactly when, at its turn, its two
      endpoints carry different labels. */
  function Chosen<V(==,!new)>(nodes: seq<V>, es: seq<Edge<V>>): (c: seq<Edge<V>>)
    requires ValidateEdges(nodes, es)
    ensures multiset(c) <= multiset(es)
    ensures ValidateEdges(nodes, c)
  {
    if |es| == 0 then []
    else
      var pre := es[..|es| - 1];
      var e := es[|es| - 1];
      assert es == pre + [e];
      var l := Labels(nodes, pre);
      if l[e.from] != l[e.to] then Chosen(nodes, pre) + [e]
      else Chosen(nodes, pre)
  }

  /** The distinct labels: one per component. */
  function Classes<V(==,!new)>(l: map<V, V>): set<V>
  {
    set x | x in l :: l[x]
  }

  /** No edge of `es` closes a cycle: each one, at its turn, joins two
      components of the edges before it. */
  ghost predicate IsForest<V(!new)>(nodes: seq<V>, es: seq<Edge<V>>)
    requires ValidateEdges(nodes, es)
  {
    forall k :: 0 <= k < |es| ==> JoinsTwo(nodes, es, k)
  }

  /** Edge `k` of `es` joins two components of the edges before it. */
  predicate JoinsTwo<V(==,!new)>(nodes: seq<V>, es: seq<Edge<V>>, k: nat)
    requires ValidateEdges(nodes, es) && k < |es|
  {
    var l := Labels(nodes, es[..k]);
    l[es[k].from] != l[es[k].to]
  }

  /** Merging two vertices that already share a label changes nothing. */
  lemma MergeSame<V(!new)>(l: map<V, V>, a: V, b: V)
    requires a in l && b in l && l[a] == l[b]
    ensures Merge(l, a, b) == l
  {
    var m := Merge(l, a, b);
    forall x | x in l
      ensures m[x] == l[x]
    {
    }
  }

  /** The skipped edges leave no trace: the chosen edges alone produce the
      labelling of all scanned edges. */
  lemma {:induction false} ChosenLabels<V(!new)>(nodes: seq<V>, es: seq<Edge<V>>)
    requires ValidateEdges(nodes, es)
    ensures Labels(nodes, Chosen(nodes, es)) == Labels(nodes, es)
  {
    if |es| > 0 {
      var pre := es[..|es| - 1];
      var e := es[|es| - 1];
      var l := Labels(nodes, pre);
      ChosenLabels(nodes, pre);
      var c := Chosen(nodes, pre);
      if l[e.from] != l[e.to] {
        var t := c + [e];
        assert t[..|t| - 1] == c && t[|t| - 1] == e;
        assert Labels(nodes, t) == Merge(Labels(nodes, c), e.from, e.to);
      } else {
        MergeSame(l, e.from, e.to);
      }
    }
  }

  /** Extending a list leaves the earlier edges' test unchanged. */
  lemma JoinsTwoAppend<V(!new)>(nodes: seq<V>, s: seq<Edge<V>>, e: Edge<V>, k: nat)
    requires ValidateEdges(nodes, s + [e]) && k < |s|
    ensures ValidateEdges(nodes, s)
    ensures JoinsTwo(nodes, s + [e], k) == JoinsTwo(nodes, s, k)
  {
    var t := s + [e];
    assert t[..k] == s[..k] && t[k] == s[k];
  }

  /** A list extended by one edge is a forest exactly when the list is one
      and the new edge joins two of its components. */
  lemma ForestAppend<V(!new)>(nodes: seq<V>, s: seq<Edge<V>>, e: Edge<V>)
    requires ValidateEdges(nodes, s + [e])
    ensures ValidateEdges(nodes, s)
    ensures IsForest(nodes, s + [e]) <==>
              IsForest(nodes, s) && Labels(nodes, s)[e.from] != Labels(nodes, s)[e.to]
  {
    var t := s + [e];
    assert t[..|s|] == s;
    forall k | 0 <= k < |s|
      ensures JoinsTwo(nodes, t, k) == JoinsTwo(nodes, s, k)
    {
      JoinsTwoAppend(nodes, s, e, k);
    }
    assert JoinsTwo(nodes, t, |s|) <==> Labels(nodes, s)[e.from] != Labels(nodes, s)[e.to];
  }

  /** Kruskal's choice never closes a cycle. */
  lemma {:induction false} ChosenIsForest<V(!new)>(nodes: seq<V>, es: seq<Edge<V>>)
    requires ValidateEdges(nodes, es)
    ensures IsForest(nodes, Chosen(nodes, es))
  {
    if |es| > 0 {
      var pre := es[..|es| - 1];
      var e := es[|es| - 1];
      ChosenIsForest(nodes, pre);
      var c := Chosen(nodes, pre);
      if Labels(nodes, pre)[e.from] != Labels(nodes, pre)[e.to] {
        ChosenLabels(nodes, pre);
        ForestAppend(nodes, c, e);
      }
    }
  }

  /** With nothing scanned, each vertex is its own class. */
  lemma SingletonClasses<V(!new)>(nodes: seq<V>)
    ensures Classes(Singletons(nodes)) == NodeSet(nodes)
  {
    var l := Singletons(nodes);
    forall v | v in NodeSet(nodes)
      ensures v in Classes(l)
    {
      assert l[v] == v;
    }
  }

  /** Merging two different classes removes exactly one class. */
  lemma MergeClasses<V(!new)>(l: map<V, V>, a: V, b: V)
    requires a in l && b in l && l[a] != l[b]
    ensures Classes(Merge(l, a, b)) == Classes(l) - {l[b]}
    ensures |Classes(Merge(l, a, b))| == |Classes(l)| - 1
  {
    var m := Merge(l, a, b);
    forall c | c in Classes(l) - {l[b]}
      ensures c in Classes(m)
    {
      var x :| x in l && l[x] == c;
      assert m[x] == c;
    }
    assert l[b] in Classes(l);
  }

  /** Every chosen edge removes one class: the chosen edges and the classes
      left together number the distinct vertices. */
  lemma {:induction false} ChosenCount<V(!new)>(nodes: seq<V>, es: seq<Edge<V>>)
    requires ValidateEdges(nodes, es)
    ensures |Chosen(nodes, es)| + |Classes(Labels(nodes, es))| == |NodeSet(nodes)|
  {
    if |es| == 0 {
      SingletonClasses(nodes);
    } else {
      var pre := es[..|es| - 1];
      var e := es[|es| - 1];
      var l := Labels(nodes, pre);
      ChosenCount(nodes, pre);
      if l[e.from] != l[e.to] {
        MergeClasses(l, e.from, e.to);
      } else {
        MergeSame(l, e.from, e.to);
      }
    }
  }

  /** A forest on n distinct vertices has at most n - 1 edges. */
  lemma ChosenBound<V(!new)>(nodes: seq<V>, es: seq<Edge<V>>)
    requires ValidateEdges(nodes, es)
    ensures |nodes| > 0 ==> |Chosen(nodes, es)| <= |NodeSet(nodes)| - 1
    ensures |nodes| == 0 ==> Chosen(nodes, es) == []
  {
    ChosenCount(nodes, es);
    var l := Labels(nodes, es);
    if |nodes| > 0 {
      assert l[nodes[0]] in Classes(l);
    } else {
      assert NodeSet(nodes) == {};
    }
  }

  /** Scanning joins the endpoints of every scanned edge, and by
      `ChosenLabels` so do the chosen edges alone: they span every
      component the input edges form. */
  lemma {:induction false} LabelsSpan<V(!new)>(nodes: seq<V>, es: seq<Edge<V>>)
    requires ValidateEdges(nodes, es)
    ensures forall i :: 0 <= i < |es| ==> Labels(nodes, es)[es[i].from] == Labels(nodes, es)[es[i].to]
  {
    if |es| > 0 {
      var pre := es[..|es| - 1];
      LabelsSpan(nodes, pre);
      forall i | 0 <= i < |es| - 1
        ensures Labels(nodes, es)[es[i].from] == Labels(nodes, es)[es[i].to]
      {
        assert pre[i] == es[i];
      }
    }
  }
}

=== FILE: decimal.dfy ===
/** Java's decimal rendering of an `int` in string concatenation
    (`Integer.toString`): an optional minus sign followed by the digits of
    the magnitude, without leading zeros. */
module Decimal {

  /** The character of a digit value. */
  function DigitChar(d: nat): (c: char)
    requires d < 10
    ensures '0' <= c <= '9'
    ensures c as int - '0' as int == d
  {
    ('0' as int + d) as char
  }

  /** The value of a digit character. */
  function DigitValue(c: char): (d: nat)
    requires '0' <= c <= '9'
    ensures d < 10 && DigitChar(d) == c
  {
    c as int - '0' as int
  }

  predicate IsDigits(s: string)
  {
    forall i :: 0 <= i < |s| ==> '0' <= s[i] <= '9'
  }

  /** The decimal digits of `n`, most significant first. */
  function Digits(n: nat): (s: string)
    ensures |s| > 0 && IsDigits(s)
    ensures |s| > 1 ==> s[0] != '0'
  {
    if n < 10 then [DigitChar(n)] else Digits(n / 10) + [DigitChar(n % 10)]
  }

  /** The number a digit string denotes. */
  function DigitsValue(s: string): nat
    requires IsDigits(s)
  {
    if |s| == 0 then 0 else 10 * DigitsValue(s[..|s| - 1]) + DigitValue(s[|s| - 1])
  }

  /** How Java renders an `int` in a string: a leading minus sign exactly
      for negative numbers, and `Parse` reads the number back. */
  function Render(n: int): (s: string)
    ensures |s| > 0
    ensures s[0] == '-' <==> n < 0
    ensures Parse(s) == n
  {
    if n < 0 then
      DigitsRoundTrip(-n);
      var s := "-" + Digits(-n);
      assert s[1..] == Digits(-n);
      s
    else
      DigitsRoundTrip(n);
      Digits(n)
  }

  /** Reading a rendered number back: the inverse of `Render`. */
  function Parse(s: string): int
  {
    if |s| > 0 && s[0] == '-' && IsDigits(s[1..]) then 0 - DigitsValue(s[1..]) as int
    else if IsDigits(s) then DigitsValue(s)
    else 0
  }

  /** The digits of `n` denote `n`. */
  lemma {:induction false} DigitsRoundTrip(n: nat)
    ensures DigitsValue(Digits(n)) == n
  {
    if n >= 10 {
      var s := Digits(n);
      assert s[..|s| - 1] == Digits(n / 10);
      DigitsRoundTrip(n / 10);
    }
  }

  /** Different numbers render differently. */
  lemma RenderInjective(a: int, b: int)
    ensures Render(a) == Render(b) <==> a == b
  {
  }
}

=== FILE: edge.dfy ===
/** The undirected weighted edge of `Edge.java` and its static `connects` test. */
module Edges {
  import opened JavaInt

  /** An edge between `from` and `to` with a Java `int` weight. The constructor
      stores its three arguments unchanged; as a value, an `Edge` can never be
      mutated by the code it is passed to. */
  datatype Edge<V> = Edge(from: V, to: V, weight: Int32)

  /** True when `e` joins `node1` and `node2`, in either orientation. The result
      is exactly "the unordered pair {node1, node2} is the pair {from, to}". */
  predicate Connects<V(==,!new)>(e: Edge<V>, node1: V, node2: V)
    ensures Connects(e, node1, node2) <==> {node1, node2} == {e.from, e.to}
  {
    (e.from == node1 && e.to == node2) || (e.from == node2 && e.to == node1)
  }

  /** `connects` does not care about the order of the two vertices. */
  lemma ConnectsSymmetric<V(!new)>(e: Edge<V>, x: V, y: V)
    ensures Connects(e, x, y) == Connects(e, y, x)
  {
  }

  /** An edge always connects its own endpoints, in both orders. */
  lemma ConnectsOwnEndpoints<V(!new)>(e: Edge<V>)
    ensures Connects(e, e.from, e.to)
    ensures Connects(e, e.to, e.from)
  {
  }

  /** `connects` never looks at the weight. */
  lemma ConnectsIgnoresWeight<V(!new)>(e: Edge<V>, w: Int32, x: V, y: V)
    ensures Connects(e, x, y) == Connects(e.(weight := w), x, y)
  {
  }

  /** The mathematical (unwrapped) sum of the weights of `es`. */
  function WeightSum<V(==,!new)>(es: seq<Edge<V>>): int
  {
    if |es| == 0 then 0 else WeightSum(es[..|es| - 1]) + es[|es| - 1].weight
  }

  /** Appending one edge adds its weight to the sum. */
  lemma WeightSumAppend<V(!new)>(es: seq<Edge<V>>, e: Edge<V>)
    ensures WeightSum(es + [e]) == WeightSum(es) + e.weight
  {
    assert (es + [e])[..|es|] == es;
  }

  /** A Java `int` running total stays the wrapped weight sum when one more
      edge is added to it. */
  lemma CostAppend<V(!new)>(es: seq<Edge<V>>, e: Edge<V>, cost: Int32)
    requires cost == Wrap(WeightSum(es))
    ensures Wrap(cost + e.weight) == Wrap(WeightSum(es + [e]))
  {
    WeightSumAppend(es, e);
    WrapAdd(WeightSum(es), e.weight);
  }
}

=== FILE: graph_data.dfy ===
/** The input graph record of `GraphData.java` and its two validators. */
module GraphData {
  import opened JavaInt
  import opened Edges

  /** One input graph: an id, an ordered vertex list and an edge list. */
  datatype Graph<V> = Graph(id: Int32, nodes: seq<V>, edges: seq<Edge<V>>)

  /** The vertices of `nodes`, forgetting order and repetition. */
  function NodeSet<V(==,!new)>(nodes: seq<V>): set<V>
  {
    set v | v in nodes
  }

  /** Every edge has both endpoints among `nodes`. The recursion mirrors the
      Java loop: each edge is inspected, and a bad one clears the flag
      without ending the scan. */
  function ValidateEdges<V(==,!new)>(nodes: seq<V>, edges: seq<Edge<V>>): (ok: bool)
    ensures ok <==> forall i :: 0 <= i < |edges| ==> edges[i].from in nodes && edges[i].to in nodes
  {
    if |edges| == 0 then true
    else
      var isValid := ValidateEdges(nodes, edges[..|edges| - 1]);
      var e := edges[|edges| - 1];
      if e.from !in nodes || e.to !in nodes then false else isValid
  }

  /** Validity is decided edge by edge: a list is valid exactly when both of
      its parts are, so one bad edge anywhere makes the whole list invalid. */
  lemma {:induction false} ValidateEdgesSplit<V(!new)>(nodes: seq<V>, a: seq<Edge<V>>, b: seq<Edge<V>>)
    ensures ValidateEdges(nodes, a + b) == (ValidateEdges(nodes, a) && ValidateEdges(nodes, b))
  {
    if |b| > 0 {
      var ab := a + b;
      assert ab[..|ab| - 1] == a + b[..|b| - 1];
      ValidateEdgesSplit(nodes, a, b[..|b| - 1]);
    } else {
      assert a + b == a;
    }
  }

  /** Some earlier edge joins the same unordered pair of vertices as a later
      one; weights and orientation play no part. */
  ghost predicate Duplicated<V(!new)>(edges: seq<Edge<V>>)
  {
    exists i, j :: 0 <= i < j < |edges| && Connects(edges[i], edges[j].from, edges[j].to)
  }

  /** The pairwise scan of `hasDuplicateEdges`: returns at the first pair i < j whose
      edges join the same two vertices. */
  method HasDuplicateEdges<V(==,!new)>(edges: seq<Edge<V>>) returns (dup: bool)
    ensures dup <==> Duplicated(edges)
    ensures |edges| <= 1 ==> !dup
  {
    var i := 0;
    while i < |edges|
      invariant 0 <= i <= |edges|
      invariant forall a, b :: 0 <= a < i && a < b < |edges| ==> !Connects(edges[a], edges[b].from, edges[b].to)
    {
      var j := i + 1;
      while j < |edges|
        invariant i + 1 <= j <= |edges|
        invariant forall b :: i < b < j ==> !Connects(edges[i], edges[b].from, edges[b].to)
      {
        if Connects(edges[i], edges[j].from, edges[j].to) {
          return true;
        }
        j := j + 1;
      }
      i := i + 1;
    }
    return false;
  }

  /** An edge listed after a reversed copy of an earlier one, whatever its
      weight, makes the list hold a duplicate. */
  lemma ReversedIsDuplicate<V(!new)>(edges: seq<Edge<V>>, i: nat, j: nat, w: Int32)
    requires i < j < |edges|
    requires edges[j] == Edge(edges[i].to, edges[i].from, w)
    ensures Duplicated(edges)
  {
    assert Connects(edges[i], edges[j].from, edges[j].to);
  }
}

=== FILE: java_int.dfy ===
/** Java's 32-bit two's-complement `int`, written out over unbounded integers. */
module JavaInt {

  const Modulus: int := 0x1_0000_0000
  const MinInt: int := -0x8000_0000
  const MaxInt: int := 0x7fff_ffff

  /** The values a Java `int` can hold. */
  type Int32 = x: int | MinInt <= x <= MaxInt

  /** The `int` that Java arithmetic produces for the mathematical value `x`:
      `x` reduced into [MinInt, MaxInt] modulo 2^32. */
  function Wrap(x: int): (r: Int32)
    ensures (r - x) % Modulus == 0
    ensures MinInt <= x <= MaxInt ==> r == x
  {
    (x - MinInt) % Modulus + MinInt
  }

  /** Wrapping after every addition gives the same `int` as wrapping once at
      the end, so an accumulator `c += w` holds `Wrap(sum)`. */
  lemma WrapAdd(a: int, b: int)
    ensures Wrap(Wrap(a) + b) == Wrap(a + b)
  {
    var q := (a - MinInt) / Modulus;
    assert Wrap(a) == a - Modulus * q;
    ModShift(a + b - MinInt, q);
  }

  lemma ModShift(y: int, q: int)
    ensures (y - Modulus * q) % Modulus == y % Modulus
  {
    var d := y / Modulus;
    var m := y % Modulus;
    assert y - Modulus * q == Modulus * (d - q) + m;
  }
}

=== FILE: kruskal.dfy ===
/** `Kruskal.runKruskal`: sort the edges by weight, then keep each edge whose
    endpoints have different union-find roots, merging their classes. */
module Kruskal {
  import opened JavaInt
  import opened Edges
  import opened GraphData
  import opened DisjointSet
  import opened Components
  import opened StableSort
  import opened Results

  /** The structure after a cycle test, and whether it found the two
      endpoints in different classes. */
  datatype Tested<V> = Tested(uf: UnionFind<V>, differ: bool)

  /** The union-find structure represents exactly the partition of the
      labelling `l`: two vertices share a root iff they share a label. */
  ghost predicate Agrees<V(!new)>(uf: UnionFind<V>, l: map<V, V>)
    requires Wf(uf)
  {
    && (forall x :: x in uf.parent <==> x in l)
    && forall x, y {:trigger PairAgrees(uf, l, x, y)} :: x in uf.parent && y in uf.parent ==> PairAgrees(uf, l, x, y)
  }

  /** `x` and `y` share a root in `uf` iff they share a label in `l`. */
  ghost predicate PairAgrees<V(!new)>(uf: UnionFind<V>, l: map<V, V>, x: V, y: V)
    requires Wf(uf) && x in uf.parent && y in uf.parent && x in l && y in l
  {
    Root(uf.parent, uf.rank, x) == Root(uf.parent, uf.rank, y) <==> l[x] == l[y]
  }

  /** The fresh structure represents the partition into single vertices. */
  lemma InitAgrees<V(!new)>(nodes: seq<V>)
    ensures Agrees(Init(nodes), Singletons(nodes))
  {
  }

  /** `find` keeps the partition, so it keeps agreement with any labelling. */
  lemma {:induction false} FindAgrees<V(!new)>(uf: UnionFind<V>, l: map<V, V>, v: V)
    requires Wf(uf) && v in uf.parent && Agrees(uf, l)
    ensures Agrees(Find(uf, v).uf, l)
  {
    var g := Find(uf, v).uf;
    FindKeepsRoots(uf, v);
    SameRootsAgree(uf, g, l);
  }

  /** Agreement depends on the roots alone. */
  lemma {:induction false} SameRootsAgree<V(!new)>(uf: UnionFind<V>, s: UnionFind<V>, l: map<V, V>)
    requires Wf(uf) && Wf(s) && Agrees(uf, l)
    requires forall x :: x in s.parent <==> x in uf.parent
    requires forall x {:trigger Root(s.parent, s.rank, x)} :: x in uf.parent ==> Root(s.parent, s.rank, x) == Root(uf.parent, uf.rank, x)
    ensures Agrees(s, l)
  {
    forall x, y | x in s.parent && y in s.parent
      ensures PairAgrees(s, l, x, y)
    {
      assert PairAgrees(uf, l, x, y);
    }
  }

  /** The per-pair core of `UnionAgrees`, in terms of roots and labels only:
      `x` and `y` have roots `rx`, `ry` and labels `lx`, `ly`; `u` and `v`
      have roots `a`, `b` and labels `lu`, `lv`; roots and labels agree;
      after the union the classes of `a` and `b` have root `w`. */
  lemma RootsMerged<V(!new)>(rx: V, ry: V, lx: V, ly: V,
                   a: V, b: V, lu: V, lv: V, w: V)
    requires rx == ry <==> lx == ly
    requires (rx == a <==> lx == lu) && (rx == b <==> lx == lv)
    requires (ry == a <==> ly == lu) && (ry == b <==> ly == lv)
    requires w == a || w == b
    ensures var rx' := if rx == a || rx == b then w else rx;
      var ry' := if ry == a || ry == b then w else ry;
      rx' == ry' <==> lx == ly || (lx == lu && ly == lv) || (lx == lv && ly == lu)
  {
  }

  /** A structure whose roots are those of `uf` except that the classes of
      roots `a` and `b` now share root `w` represents the labelling `l` with
      the classes of `u` and `v` merged. */
  lemma {:induction false} RelinkAgrees<V(!new)>(uf: UnionFind<V>, r: UnionFind<V>, l: map<V, V>, u: V, v: V, w: V)
    requires Wf(uf) && Wf(r) && u in uf.parent && v in uf.parent && Agrees(uf, l)
    requires forall x :: x in r.parent <==> x in uf.parent
    requires var a := Root(uf.parent, uf.rank, u);
      var b := Root(uf.parent, uf.rank, v);
      && (w == a || w == b)
      && forall x {:trigger Root(r.parent, r.rank, x)} :: x in uf.parent ==>
           Root(r.parent, r.rank, x) ==
             (if Root(uf.parent, uf.rank, x) == a || Root(uf.parent, uf.rank, x) == b then w else Root(uf.parent, uf.rank, x))
    ensures Agrees(r, Merge(l, u, v))
  {
    var m := Merge(l, u, v);
    var a := Root(uf.parent, uf.rank, u);
    var b := Root(uf.parent, uf.rank, v);
    forall x, y | x in r.parent && y in r.parent
      ensures PairAgrees(r, m, x, y)
    {
      var rx, ry := Root(uf.parent, uf.rank, x), Root(uf.parent, uf.rank, y);
      assert PairAgrees(uf, l, x, y) && PairAgrees(uf, l, x, u) && PairAgrees(uf, l, x, v);
      assert PairAgrees(uf, l, y, u) && PairAgrees(uf, l, y, v);
      RootsMerged(rx, ry, l[x], l[y], a, b, l[u], l[v], w);
      MergeJoins(l, u, v, x, y);
    }
  }

  /** `union(u, v)` merges exactly the classes that scanning an edge from `u`
      to `v` merges in the reference labelling. */
  lemma {:induction false} UnionAgrees<V(!new)>(uf: UnionFind<V>, l: map<V, V>, u: V, v: V)
    requires Wf(uf) && u in uf.parent && v in uf.parent && Agrees(uf, l)
    ensures Agrees(Union(uf, u, v), Merge(l, u, v))
  {
    var a := Root(uf.parent, uf.rank, u);
    var b := Root(uf.parent, uf.rank, v);
    RelinkAgrees(uf, Union(uf, u, v), l, u, v, if a != b && uf.rank[a] < uf.rank[b] then b else a);
  }

  /** Sorting keeps every edge, so it keeps the edges valid. */
  lemma SortedValid<V(!new)>(nodes: seq<V>, edges: seq<Edge<V>>)
    requires ValidateEdges(nodes, edges)
    ensures ValidateEdges(nodes, SortByWeight(edges))
  {
    var s := SortByWeight(edges);
    forall i | 0 <= i < |s|
      ensures s[i].from in nodes && s[i].to in nodes
    {
      assert s[i] in multiset(edges);
      var k :| 0 <= k < |edges| && edges[k] == s[i];
    }
  }

  /** Scanning edge `i` of `s`: the labelling merges its endpoints, and the
      edge is chosen exactly when they were labelled differently. */
  lemma ScanStep<V(!new)>(nodes: seq<V>, s: seq<Edge<V>>, i: nat)
    requires ValidateEdges(nodes, s) && i < |s|
    ensures ValidateEdges(nodes, s[..i]) && ValidateEdges(nodes, s[..i + 1])
    ensures Labels(nodes, s[..i + 1]) == Merge(Labels(nodes, s[..i]), s[i].from, s[i].to)
    ensures var l := Labels(nodes, s[..i]);
      Chosen(nodes, s[..i + 1]) == if l[s[i].from] != l[s[i].to] then Chosen(nodes, s[..i]) + [s[i]] else Chosen(nodes, s[..i])
  {
    assert s[..i + 1][..i] == s[..i];
  }

  /** A choice from a sorted list is sorted. */
  lemma {:induction false} ChosenSorted<V(!new)>(nodes: seq<V>, es: seq<Edge<V>>)
    requires ValidateEdges(nodes, es) && Sorted(es)
    ensures Sorted(Chosen(nodes, es))
  {
    if |es| > 0 {
      var pre := es[..|es| - 1];
      var e := es[|es| - 1];
      SortedPrefix(es, |es| - 1);
      ChosenSorted(nodes, pre);
      var c := Chosen(nodes, pre);
      if Chosen(nodes, es) != c {
        forall x | x in c
          ensures x.weight <= e.weight
        {
          assert x in multiset(pre);
          SortedLast(es, x);
        }
        SortedAppend(c, e);
      }
    }
  }

  /** An edge no lighter than every edge of a sorted list can follow it. */
  lemma SortedAppend<V(!new)>(c: seq<Edge<V>>, e: Edge<V>)
    requires Sorted(c) && forall x :: x in c ==> x.weight <= e.weight
    ensures Sorted(c + [e])
  {
    var t := c + [e];
    forall i, j | 0 <= i < j < |t|
      ensures t[i].weight <= t[j].weight
    {
      if j == |c| {
        assert t[i] in c;
      }
    }
  }

  /** Every input edge has its endpoints joined by the chosen edges: the
      result spans each component of the input graph. */
  lemma KruskalSpans<V(!new)>(nodes: seq<V>, edges: seq<Edge<V>>)
    requires ValidateEdges(nodes, edges)
    ensures ValidateEdges(nodes, SortByWeight(edges))
    ensures var l := Labels(nodes, Chosen(nodes, SortByWeight(edges)));
      forall i :: 0 <= i < |edges| ==> l[edges[i].from] == l[edges[i].to]
  {
    SortedValid(nodes, edges);
    var s := SortByWeight(edges);
    ChosenLabels(nodes, s);
    LabelsSpan(nodes, s);
    var l := Labels(nodes, s);
    forall i | 0 <= i < |edges|
      ensures l[edges[i].from] == l[edges[i].to]
    {
      assert edges[i] in multiset(s);
      var k :| 0 <= k < |s| && s[k] == edges[i];
    }
  }

  /** The cycle test of `runKruskal`, `find(from)` compared with `find(to)`:
      the two counted calls compress paths but keep every root, and the
      endpoints are reported apart exactly when their roots differ. */
  function CycleTest<V(==,!new)>(uf: UnionFind<V>, u: V, v: V): (r: Tested<V>)
    requires Wf(uf) && u in uf.parent && v in uf.parent
    ensures Wf(r.uf) && (forall x :: x in r.uf.parent <==> x in uf.parent)
    ensures forall x {:trigger Root(r.uf.parent, r.uf.rank, x)} :: x in uf.parent ==>
              Root(r.uf.parent, r.uf.rank, x) == Root(uf.parent, uf.rank, x)
    ensures r.differ <==> Root(uf.parent, uf.rank, u) != Root(uf.parent, uf.rank, v)
    ensures uf.operations + 2 <= r.uf.operations
  {
    var f1 := Find(uf, u);
    FindKeepsRoots(uf, u);
    var f2 := Find(f1.uf, v);
    FindKeepsRoots(f1.uf, v);
    Tested(f2.uf, f1.root != f2.root)
  }

  /** The state of `runKruskal` after scanning the first `i` edges of `s`:
      the union-find represents the reference labelling, and the chosen
      edges and their wrapped total are the reference ones. */
  ghost predicate Scanned<V(!new)>(nodes: seq<V>, s: seq<Edge<V>>, i: nat, uf: UnionFind<V>, mst: seq<Edge<V>>, cost: Int32)
  {
    && i <= |s|
    && ValidateEdges(nodes, s[..i])
    && Wf(uf) && (forall x :: x in uf.parent <==> x in nodes)
    && Agrees(uf, Labels(nodes, s[..i]))
    && mst == Chosen(nodes, s[..i])
    && cost == Wrap(WeightSum(mst))
  }

  /** One iteration of the loop of `runKruskal` on edge `i` of `s`: `find`
      both endpoints and, when the roots differ, `union` them, keep the edge
      and add its weight. Each edge costs at least two counted `find` calls,
      and each kept edge at least three more in `union`. */
  method ScanEdge<V(==,!new)>(nodes: seq<V>, s: seq<Edge<V>>, i: nat, uf: UnionFind<V>, mst: seq<Edge<V>>, cost: Int32)
    returns (uf': UnionFind<V>, mst': seq<Edge<V>>, cost': Int32)
    requires ValidateEdges(nodes, s) && i < |s|
    requires Scanned(nodes, s, i, uf, mst, cost)
    ensures Scanned(nodes, s, i + 1, uf', mst', cost')
    ensures uf.operations + 2 + 3 * (|mst'| - |mst|) <= uf'.operations
    ensures |mst| <= |mst'| <= |mst| + 1
  {
    var e := s[i];
    var t := CycleTest(uf, e.from, e.to);
    if t.differ {
      KeepAgrees(nodes, s, i, uf, t.uf);
      ScanStep(nodes, s, i);
      CostAppend(mst, e, cost);
      uf' := Union(t.uf, e.from, e.to);
      cost' := Wrap(cost + e.weight);
      mst' := mst + [e];
    } else {
      SkipEdge(nodes, s, i, uf, t.uf, mst, cost);
      uf', mst', cost' := t.uf, mst, cost;
    }
  }

  /** Scanning edge `i` when the cycle test found its endpoints apart: the endpoints of edge `i` carry
      different labels, and after the `union` the structure represents the
      labelling with edge `i` scanned. */
  lemma {:induction false} KeepAgrees<V(!new)>(nodes: seq<V>, s: seq<Edge<V>>, i: nat, uf: UnionFind<V>, t: UnionFind<V>)
    requires ValidateEdges(nodes, s) && i < |s| && ValidateEdges(nodes, s[..i])
    requires Wf(uf) && Agrees(uf, Labels(nodes, s[..i]))
    requires Wf(t) && (forall x :: x in t.parent <==> x in uf.parent)
    requires forall x {:trigger Root(t.parent, t.rank, x)} :: x in uf.parent ==> Root(t.parent, t.rank, x) == Root(uf.parent, uf.rank, x)
    requires Root(uf.parent, uf.rank, s[i].from) != Root(uf.parent, uf.rank, s[i].to)
    ensures Labels(nodes, s[..i])[s[i].from] != Labels(nodes, s[..i])[s[i].to]
    ensures ValidateEdges(nodes, s[..i + 1])
    ensures Agrees(Union(t, s[i].from, s[i].to), Labels(nodes, s[..i + 1]))
  {
    var e := s[i];
    var l := Labels(nodes, s[..i]);
    ScanStep(nodes, s, i);
    assert PairAgrees(uf, l, e.from, e.to);
    SameRootsAgree(uf, t, l);
    UnionAgrees(t, l, e.from, e.to);
  }

  /** The scanning state, after a cycle test on edge `i` that found its
      endpoints in one class, is advanced by the compressed structure alone. */
  lemma {:induction false} SkipEdge<V(!new)>(nodes: seq<V>, s: seq<Edge<V>>, i: nat, uf: UnionFind<V>, t: UnionFind<V>, mst: seq<Edge<V>>, cost: Int32)
    requires ValidateEdges(nodes, s) && i < |s|
    requires Scanned(nodes, s, i, uf, mst, cost)
    requires Wf(t) && (forall x :: x in t.parent <==> x in uf.parent)
    requires forall x {:trigger Root(t.parent, t.rank, x)} :: x in uf.parent ==> Root(t.parent, t.rank, x) == Root(uf.parent, uf.rank, x)
    requires Root(uf.parent, uf.rank, s[i].from) == Root(uf.parent, uf.rank, s[i].to)
    ensures Scanned(nodes, s, i + 1, t, mst, cost)
  {
    var e := s[i];
    var l := Labels(nodes, s[..i]);
    ScanStep(nodes, s, i);
    SameRootsAgree(uf, t, l);
    assert PairAgrees(uf, l, e.from, e.to);
    MergeSame(l, e.from, e.to);
  }

  /** What `runKruskal` returns for `nodes` and `edges`: the edges of the
      reference labelling over the stable weight order, sorted by weight,
      a forest of at most n - 1 edges on n distinct vertices that joins the
      endpoints of every input edge, costing their wrapped sum, with three
      counted operations per scanned edge and three more per chosen edge. */
  ghost predicate KruskalTree<V(!new)>(nodes: seq<V>, edges: seq<Edge<V>>, res: MstResult<V>)
  {
    && ValidateEdges(nodes, edges)
    && ValidateEdges(nodes, SortByWeight(edges))
    && res.mstEdges == Chosen(nodes, SortByWeight(edges))
    && res.totalCost == Wrap(WeightSum(res.mstEdges))
    && multiset(res.mstEdges) <= multiset(edges)
    && Sorted(res.mstEdges)
    && ValidateEdges(nodes, res.mstEdges) && IsForest(nodes, res.mstEdges)
    && (|nodes| > 0 ==> |res.mstEdges| <= |NodeSet(nodes)| - 1)
    && (|nodes| == 0 ==> res.mstEdges == [])
    && (forall i :: 0 <= i < |edges| ==>
          Labels(nodes, res.mstEdges)[edges[i].from] == Labels(nodes, res.mstEdges)[edges[i].to])
    && 3 * |edges| + 3 * |res.mstEdges| <= res.operations
  }

  /** `runKruskal`: scan the edges in stable weight order, counting one
      operation per edge, and keep an edge when `find` gives its endpoints
      different roots, merging them with `union` and adding its weight to
      the Java `int` total. The union-find's own count is added at the end.
      The chosen edges are those of the reference labelling, they are sorted
      by weight, form a forest of at most n - 1 edges on n distinct
      vertices, and join the endpoints of every input edge. */
  method RunKruskal<V(==,!new)>(nodes: seq<V>, edges: seq<Edge<V>>) returns (r: MstResult<V>)
    requires ValidateEdges(nodes, edges)
    ensures ValidateEdges(nodes, SortByWeight(edges)) && r.mstEdges == Chosen(nodes, SortByWeight(edges))
    ensures r.totalCost == Wrap(WeightSum(r.mstEdges))
    ensures multiset(r.mstEdges) <= multiset(edges)
    ensures Sorted(r.mstEdges)
    ensures IsForest(nodes, r.mstEdges)
    ensures |nodes| > 0 ==> |r.mstEdges| <= |NodeSet(nodes)| - 1
    ensures |nodes| == 0 ==> r.mstEdges == []
    ensures forall i :: 0 <= i < |edges| ==>
              Labels(nodes, r.mstEdges)[edges[i].from] == Labels(nodes, r.mstEdges)[edges[i].to]
    ensures 3 * |edges| + 3 * |r.mstEdges| <= r.operations
    ensures KruskalTree(nodes, edges, r)
  {
    var sorted := SortByWeight(edges);
    SortedValid(nodes, edges);
    var uf := Init(nodes);
    InitAgrees(nodes);
    var mst: seq<Edge<V>> := [];
    var cost: Int32 := 0;
    var ops := 0;
    var i := 0;
    assert sorted[..0] == [];
    while i < |sorted|
      invariant 0 <= i <= |sorted|
      invariant Scanned(nodes, sorted, i, uf, mst, cost)
      invariant ops == i
      invariant 2 * i + 3 * |mst| <= uf.operations
    {
      uf, mst, cost := ScanEdge(nodes, sorted, i, uf, mst, cost);
      ops := ops + 1;
      i := i + 1;
    }
    assert sorted[..|sorted|] == sorted;
    ChosenSorted(nodes, sorted);
    ChosenIsForest(nodes, sorted);
    ChosenBound(nodes, sorted);
    KruskalSpans(nodes, edges);
    r := MstResult(mst, cost, ops + uf.operations);
  }
}

=== FILE: prim.dfy ===
/** `Prim.runPrim` and its helpers: an adjacency map holding every edge in
    both orientations, a tree grown from the first listed vertex, and a
    min-priority queue of candidate edges from which stale entries are
    discarded lazily. The queue is a multiset; `poll` may return any edge of
    minimum weight, since the library's tie-breaking is unspecified. */
module Prim {
  import opened Wrappers
  import opened JavaInt
  import opened Edges
  import opened GraphData
  import opened Components
  import opened Results

  /** Why `runPrim` cannot produce a result: with no vertex the start node is
      `null`, and adding its (absent) adjacency list to the queue throws. */
  datatype PrimError = NullStartNode

  /** The copy of `e` that `buildAdjacencyList` files under `e.to`. */
  function Reversed<V(!new)>(e: Edge<V>): (r: Edge<V>)
    ensures r.from == e.to && r.to == e.from && r.weight == e.weight
  {
    Edge(e.to, e.from, e.weight)
  }

  /** The adjacency list of `v` after the edges `es` have been filed, in
      filing order: each edge is filed under its `from` as itself and under
      its `to` reversed. */
  function Incident<V(==,!new)>(es: seq<Edge<V>>, v: V): seq<Edge<V>>
  {
    if |es| == 0 then []
    else
      var e := es[|es| - 1];
      Incident(es[..|es| - 1], v)
        + (if e.from == v then [Edge(e.from, e.to, e.weight)] else [])
        + (if e.to == v then [Reversed(e)] else [])
  }

  /** What an adjacency list holds: exactly the input edges leaving `v` and
      the reversals of the input edges entering `v`. */
  lemma {:induction false} IncidentMembers<V(!new)>(es: seq<Edge<V>>, v: V, x: Edge<V>)
    ensures x in Incident(es, v) <==> x.from == v && (x in es || Reversed(x) in es)
  {
    if |es| > 0 {
      var pre := es[..|es| - 1];
      IncidentMembers(pre, v, x);
      assert es == pre + [es[|es| - 1]];
    }
  }

  /** Every arc of an adjacency list leaves its owner and, when the edges
      are valid, leads to a listed vertex. */
  lemma {:induction false} IncidentArcs<V(!new)>(nodes: seq<V>, es: seq<Edge<V>>, v: V, x: Edge<V>)
    requires ValidateEdges(nodes, es) && x in Incident(es, v)
    ensures x.from == v && x.to in nodes
  {
    IncidentMembers(es, v, x);
    if x in es {
      var i :| 0 <= i < |es| && es[i] == x;
    } else {
      var i :| 0 <= i < |es| && es[i] == Reversed(x);
    }
  }

  /** `buildAdjacencyList`: one key per listed vertex, each holding the
      oriented copies of the edges at that vertex in input order. A self-loop
      is filed twice under its vertex. */
  method BuildAdjacency<V(==,!new)>(nodes: seq<V>, edges: seq<Edge<V>>) returns (adj: map<V, seq<Edge<V>>>)
    requires ValidateEdges(nodes, edges)
    ensures forall v :: v in adj <==> v in nodes
    ensures forall v :: v in adj ==> adj[v] == Incident(edges, v)
    ensures Adjacency(nodes, edges, adj)
  {
    adj := map[];
    var k := 0;
    while k < |nodes|
      invariant 0 <= k <= |nodes|
      invariant forall v :: v in adj <==> v in nodes[..k]
      invariant forall v :: v in adj ==> adj[v] == []
    {
      adj := adj[nodes[k] := []];
      k := k + 1;
    }
    assert nodes[..k] == nodes;
    var i := 0;
    while i < |edges|
      invariant 0 <= i <= |edges|
      invariant forall v :: v in adj <==> v in nodes
      invariant forall v :: v in adj ==> adj[v] == Incident(edges[..i], v)
    {
      var e := edges[i];
      assert edges[..i + 1][..i] == edges[..i];
      adj := adj[e.from := adj[e.from] + [Edge(e.from, e.to, e.weight)]];
      adj := adj[e.to := adj[e.to] + [Reversed(e)]];
      i := i + 1;
    }
    assert edges[..i] == edges;
    IncidentAdjacency(nodes, edges, adj);
  }

  /** `selectStartNode`: the first listed vertex, or nothing (`null`) when
      there is none. */
  function SelectStartNode<V(!new)>(nodes: seq<V>): (r: Option<V>)
    ensures r.Some? <==> |nodes| > 0
    ensures r.Some? ==> r.value == nodes[0] && r.value in nodes
  {
    if |nodes| == 0 then None else Some(nodes[0])
  }

  /** The vertices of the tree rooted at `root` whose edges are `es`. */
  function Reached<V(!new)>(root: V, es: seq<Edge<V>>): (r: set<V>)
    ensures root in r
  {
    if |es| == 0 then {root} else Reached(root, es[..|es| - 1]) + {es[|es| - 1].to}
  }

  /** Edge `k` of `es` leaves the tree the edges before it span and enters a
      vertex outside it. */
  ghost predicate Grows<V(!new)>(root: V, es: seq<Edge<V>>, k: nat)
    requires k < |es|
  {
    es[k].from in Reached(root, es[..k]) && es[k].to !in Reached(root, es[..k])
  }

  /** `es`, in order, grows a tree from `root` one new vertex at a time. */
  ghost predicate GrownFrom<V(!new)>(root: V, es: seq<Edge<V>>)
  {
    forall k :: 0 <= k < |es| ==> Grows(root, es, k)
  }

  /** Extending a tree by one edge: the extension grows from `root` exactly
      when the tree does and the new edge leads from it to a new vertex. */
  lemma {:induction false} GrownAppend<V(!new)>(root: V, es: seq<Edge<V>>, e: Edge<V>)
    ensures GrownFrom(root, es + [e]) <==>
              GrownFrom(root, es) && e.from in Reached(root, es) && e.to !in Reached(root, es)
  {
    var t := es + [e];
    assert t[..|es|] == es;
    forall k | 0 <= k < |es|
      ensures Grows(root, t, k) == Grows(root, es, k)
    {
      assert t[..k] == es[..k] && t[k] == es[k];
    }
    assert Grows(root, t, |es|) <==> e.from in Reached(root, es) && e.to !in Reached(root, es);
  }

  /** A grown tree has one vertex more than it has edges. */
  lemma {:induction false} GrownSize<V(!new)>(root: V, es: seq<Edge<V>>)
    requires GrownFrom(root, es)
    ensures |Reached(root, es)| == |es| + 1
  {
    if |es| > 0 {
      var pre := es[..|es| - 1];
      assert es == pre + [es[|es| - 1]];
      GrownAppend(root, pre, es[|es| - 1]);
      GrownSize(root, pre);
    }
  }

  /** The reference labelling of a grown tree: the tree's vertices carry the
      root's label and every other listed vertex is still alone. */
  lemma {:induction false} GrownLabels<V(!new)>(nodes: seq<V>, root: V, es: seq<Edge<V>>)
    requires root in nodes && ValidateEdges(nodes, es) && GrownFrom(root, es)
    ensures forall x :: x in nodes ==>
              Labels(nodes, es)[x] == if x in Reached(root, es) then root else x
  {
    if |es| > 0 {
      var pre := es[..|es| - 1];
      var e := es[|es| - 1];
      assert es == pre + [e];
      GrownAppend(root, pre, e);
      GrownLabels(nodes, root, pre);
    }
  }

  /** A tree grown from a listed vertex is a forest in the sense of the
      reference labelling: each edge joins two different components. */
  lemma {:induction false} GrownIsForest<V(!new)>(nodes: seq<V>, root: V, es: seq<Edge<V>>)
    requires root in nodes && ValidateEdges(nodes, es) && GrownFrom(root, es)
    ensures IsForest(nodes, es)
  {
    if |es| > 0 {
      var pre := es[..|es| - 1];
      var e := es[|es| - 1];
      assert es == pre + [e];
      GrownAppend(root, pre, e);
      GrownIsForest(nodes, root, pre);
      GrownLabels(nodes, root, pre);
      ForestAppend(nodes, pre, e);
    }
  }

  /** The edges `processEdge` pushes from an adjacency list: those leading
      to a vertex outside `visited` (the `connects` test always passes). */
  function Pushed<V(==,!new)>(arcs: seq<Edge<V>>, visited: set<V>): (q: multiset<Edge<V>>)
    ensures forall x :: q[x] == if x.to in visited then 0 else multiset(arcs)[x]
  {
    if |arcs| == 0 then multiset{}
    else
      var pre := arcs[..|arcs| - 1];
      var next := arcs[|arcs| - 1];
      assert arcs == pre + [next];
      if next.to !in visited && Connects(next, next.from, next.to) then Pushed(pre, visited) + multiset{next}
      else Pushed(pre, visited)
  }

  /** The state `runPrim` threads through its loop: the queue, the visited
      set, the accepted edges and their Java `int` total. */
  datatype Search<V> = Search(pq: multiset<Edge<V>>, visited: set<V>, mst: seq<Edge<V>>, cost: Int32)

  /** `processEdge`: accept `current`, mark its destination visited and
      queue the edges from there toward vertices not yet visited. */
  function ProcessEdge<V(==,!new)>(s: Search<V>, current: Edge<V>, adj: map<V, seq<Edge<V>>>): (r: Search<V>)
    requires current.to in adj
    ensures r.mst == s.mst + [current]
    ensures r.cost == Wrap(s.cost + current.weight)
    ensures r.visited == s.visited + {current.to}
    ensures forall x :: r.pq[x] == s.pq[x] + if x.to in r.visited then 0 else multiset(adj[current.to])[x]
  {
    if !Connects(current, current.from, current.to) then s
    else
      var visited := s.visited + {current.to};
      Search(s.pq + Pushed(adj[current.to], visited), visited, s.mst + [current], Wrap(s.cost + current.weight))
  }

  /** `m` is queued and no queued edge weighs less. */
  predicate Least<V(==)>(m: Edge<V>, q: multiset<Edge<V>>)
  {
    m in q && forall x :: x in q ==> m.weight <= x.weight
  }

  /** A non-empty queue has an edge of minimum weight. */
  lemma {:induction false} MinimumExists<V(!new)>(q: multiset<Edge<V>>)
    requires |q| > 0
    ensures exists m :: Least(m, q)
    decreases |q|
  {
    var y :| y in q;
    var rest := q - multiset{y};
    var best := y;
    if |rest| > 0 {
      MinimumExists(rest);
      var m :| Least(m, rest);
      best := if y.weight < m.weight then y else m;
    }
    forall x | x in q
      ensures best.weight <= x.weight
    {
      if x != y {
        assert x in rest;
      }
    }
    assert Least(best, q);
  }

  /** A listed vertex set has no more elements than the list. */
  lemma {:induction false} NodeSetSize<V(!new)>(nodes: seq<V>)
    ensures |NodeSet(nodes)| <= |nodes|
  {
    if |nodes| > 0 {
      var pre := nodes[..|nodes| - 1];
      assert nodes == pre + [nodes[|nodes| - 1]];
      assert NodeSet(nodes) == NodeSet(pre) + {nodes[|nodes| - 1]};
      NodeSetSize(pre);
    }
  }

  /** What the search needs of an adjacency map built from `edges`: a key
      per listed vertex; every arc leaves its owner toward a key and is an
      input edge or the reversal of one; and every input edge is filed under
      its `from` and, reversed, under its `to`. */
  ghost predicate Adjacency<V(!new)>(nodes: seq<V>, edges: seq<Edge<V>>, adj: map<V, seq<Edge<V>>>)
  {
    && (forall v :: v in adj <==> v in nodes)
    && (forall v, x :: v in adj && x in adj[v] ==>
          x.from == v && x.to in adj && (x in edges || Reversed(x) in edges))
    && (forall i :: 0 <= i < |edges| ==>
          && edges[i].from in adj && edges[i] in adj[edges[i].from]
          && edges[i].to in adj && Reversed(edges[i]) in adj[edges[i].to])
  }

  /** The map `buildAdjacencyList` returns is an adjacency map of the
      edges. */
  lemma {:induction false} IncidentAdjacency<V(!new)>(nodes: seq<V>, edges: seq<Edge<V>>, adj: map<V, seq<Edge<V>>>)
    requires ValidateEdges(nodes, edges)
    requires forall v :: v in adj <==> v in nodes
    requires forall v :: v in adj ==> adj[v] == Incident(edges, v)
    ensures Adjacency(nodes, edges, adj)
  {
    forall v, x | v in adj && x in adj[v]
      ensures x.from == v && x.to in adj && (x in edges || Reversed(x) in edges)
    {
      IncidentArcs(nodes, edges, v, x);
      IncidentMembers(edges, v, x);
    }
    forall i | 0 <= i < |edges|
      ensures edges[i] in adj[edges[i].from] && Reversed(edges[i]) in adj[edges[i].to]
    {
      var e := edges[i];
      IncidentMembers(edges, e.from, e);
      IncidentMembers(edges, e.to, Reversed(e));
      assert Reversed(Reversed(e)) == e;
    }
  }

  /** The loop invariant of `runPrim` for the tree grown from `root`: the
      tree's vertices are the visited ones; its edges are oriented copies of
      input edges and its cost is their wrapped sum; the queue holds arcs
      leaving visited vertices; and every arc from a visited vertex to an
      unvisited one is still queued. */
  ghost predicate Searching<V(!new)>(nodes: seq<V>, edges: seq<Edge<V>>, adj: map<V, seq<Edge<V>>>, root: V, s: Search<V>)
  {
    && Adjacency(nodes, edges, adj) && root in adj
    && (forall v :: v in s.visited ==> v in adj)
    && s.visited == Reached(root, s.mst)
    && GrownFrom(root, s.mst)
    && (forall k :: 0 <= k < |s.mst| ==> s.mst[k] in edges || Reversed(s.mst[k]) in edges)
    && s.cost == Wrap(WeightSum(s.mst))
    && (forall x :: x in s.pq ==> x.from in s.visited && x in adj[x.from])
    && (forall v, x :: v in s.visited && x in adj[v] && x.to !in s.visited ==> x in s.pq)
  }

  /** The state right after the start node is visited and its adjacency
      list queued satisfies the invariant. */
  lemma {:induction false} StartSearching<V(!new)>(nodes: seq<V>, edges: seq<Edge<V>>, adj: map<V, seq<Edge<V>>>, root: V)
    requires Adjacency(nodes, edges, adj) && root in adj
    ensures Searching(nodes, edges, adj, root, Search(multiset(adj[root]), {root}, [], 0))
  {
  }

  /** Discarding a polled edge whose destination is already visited keeps
      the invariant. */
  lemma {:induction false} DiscardKeeps<V(!new)>(nodes: seq<V>, edges: seq<Edge<V>>, adj: map<V, seq<Edge<V>>>, root: V, s: Search<V>, c: Edge<V>)
    requires Searching(nodes, edges, adj, root, s) && c in s.pq && c.to in s.visited
    ensures Searching(nodes, edges, adj, root, s.(pq := s.pq - multiset{c}))
  {
  }

  /** The state after polling `c` from the queue and accepting it. */
  ghost function Accept<V(!new)>(s: Search<V>, c: Edge<V>, adj: map<V, seq<Edge<V>>>): Search<V>
    requires c.to in adj
  {
    ProcessEdge(s.(pq := s.pq - multiset{c}), c, adj)
  }

  /** Visiting a vertex not yet visited adds exactly one to the count. */
  lemma VisitOne<V(!new)>(visited: set<V>, v: V)
    requires v !in visited
    ensures |visited + {v}| == |visited| + 1
  {
  }

  /** `s'` is the state after polling `c` and accepting it: the rest of the
      queue plus exactly the arcs `processEdge` pushes, with `c` appended
      and its destination visited. */
  ghost predicate Accepted<V(!new)>(s: Search<V>, c: Edge<V>, adj: map<V, seq<Edge<V>>>, s': Search<V>)
  {
    c.to in adj && s' == Accept(s, c, adj)
  }

  /** Accepting a polled edge whose destination is not yet visited keeps the
      invariant, and the destination is a listed vertex. */
  lemma {:induction false} AcceptKeeps<V(!new)>(nodes: seq<V>, edges: seq<Edge<V>>, adj: map<V, seq<Edge<V>>>, root: V, s: Search<V>, c: Edge<V>)
    requires Searching(nodes, edges, adj, root, s) && c in s.pq && c.to !in s.visited
    ensures c.to in adj
    ensures Searching(nodes, edges, adj, root, Accept(s, c, adj))
  {
    AcceptTree(nodes, edges, adj, root, s, c);
    AcceptQueue(nodes, edges, adj, root, s, c);
  }

  /** The tree part of the invariant after accepting a polled edge. */
  lemma {:induction false} AcceptTree<V(!new)>(nodes: seq<V>, edges: seq<Edge<V>>, adj: map<V, seq<Edge<V>>>, root: V, s: Search<V>, c: Edge<V>)
    requires Searching(nodes, edges, adj, root, s) && c in s.pq && c.to !in s.visited
    ensures c.to in adj
    ensures Accept(s, c, adj).visited == Reached(root, Accept(s, c, adj).mst)
    ensures GrownFrom(root, Accept(s, c, adj).mst)
    ensures Accept(s, c, adj).cost == Wrap(WeightSum(Accept(s, c, adj).mst))
  {
    var p := s.(pq := s.pq - multiset{c});
    var r := ProcessEdge(p, c, adj);
    assert r.mst[..|s.mst|] == s.mst;
    GrownAppend(root, s.mst, c);
    ProcessCost(p, c, adj);
  }

  /** The queue part of the invariant after accepting a polled edge. */
  lemma {:induction false} AcceptQueue<V(!new)>(nodes: seq<V>, edges: seq<Edge<V>>, adj: map<V, seq<Edge<V>>>, root: V, s: Search<V>, c: Edge<V>)
    requires Searching(nodes, edges, adj, root, s) && c in s.pq && c.to !in s.visited
    ensures c.to in adj
    ensures forall x :: x in Accept(s, c, adj).pq ==>
              x.from in Accept(s, c, adj).visited && x in adj[x.from]
    ensures forall v, x :: v in Accept(s, c, adj).visited && x in adj[v] && x.to !in Accept(s, c, adj).visited ==>
              x in Accept(s, c, adj).pq
  {
    var p := s.(pq := s.pq - multiset{c});
    var r := ProcessEdge(p, c, adj);
    forall x | x in r.pq
      ensures x.from in r.visited && x in adj[x.from]
    {
      if x !in p.pq {
        assert x in multiset(adj[c.to]);
      }
    }
    forall v, x | v in r.visited && x in adj[v] && x.to !in r.visited
      ensures x in r.pq
    {
      if v == c.to {
        assert x in multiset(adj[c.to]);
      } else {
        assert x in s.pq && x != c;
      }
    }
  }

  /** Processing an edge keeps the total the wrapped sum of the accepted
      edges. */
  lemma {:induction false} ProcessCost<V(!new)>(s: Search<V>, c: Edge<V>, adj: map<V, seq<Edge<V>>>)
    requires c.to in adj && s.cost == Wrap(WeightSum(s.mst))
    ensures ProcessEdge(s, c, adj).cost == Wrap(WeightSum(ProcessEdge(s, c, adj).mst))
  {
    CostAppend(s.mst, c, s.cost);
  }

  /** One iteration of the loop of `runPrim` on a non-empty queue: poll some
      edge of minimum weight and count it; discard it when its destination is
      visited, otherwise process it. */
  method PollStep<V(==,!new)>(nodes: seq<V>, edges: seq<Edge<V>>, adj: map<V, seq<Edge<V>>>, root: V, s: Search<V>)
    returns (s': Search<V>, polled: Edge<V>, accepted: bool)
    requires Searching(nodes, edges, adj, root, s) && |s.pq| > 0
    ensures Searching(nodes, edges, adj, root, s')
    ensures polled in s.pq && forall x :: x in s.pq ==> polled.weight <= x.weight
    ensures accepted <==> polled.to !in s.visited
    ensures !accepted ==> s' == s.(pq := s.pq - multiset{polled})
    ensures accepted ==> s'.mst == s.mst + [polled] && s'.visited == s.visited + {polled.to}
    ensures accepted ==> Accepted(s, polled, adj, s')
  {
    MinimumExists(s.pq);
    polled :| Least(polled, s.pq);
    var rest := s.(pq := s.pq - multiset{polled});
    if polled.to in rest.visited {
      DiscardKeeps(nodes, edges, adj, root, s, polled);
      return rest, polled, false;
    }
    AcceptKeeps(nodes, edges, adj, root, s, polled);
    s' := ProcessEdge(rest, polled, adj);
    accepted := true;
  }

  /** What a successful `runPrim` returns for `nodes` and `edges`: a tree
      grown from `nodes[0]` out of oriented copies of input edges, a forest
      of at most |distinct vertices| - 1 edges whose cost is their wrapped
      sum, spanning the component of `nodes[0]`, with at least one counted
      operation per accepted edge. */
  ghost predicate PrimTree<V(!new)>(nodes: seq<V>, edges: seq<Edge<V>>, res: MstResult<V>)
  {
    && |nodes| > 0
    && GrownFrom(nodes[0], res.mstEdges)
    && (forall k :: 0 <= k < |res.mstEdges| ==> res.mstEdges[k] in edges || Reversed(res.mstEdges[k]) in edges)
    && res.totalCost == Wrap(WeightSum(res.mstEdges))
    && ValidateEdges(nodes, res.mstEdges) && IsForest(nodes, res.mstEdges)
    && |res.mstEdges| <= |NodeSet(nodes)| - 1
    && (forall i :: 0 <= i < |edges| ==>
          (edges[i].from in Reached(nodes[0], res.mstEdges) <==> edges[i].to in Reached(nodes[0], res.mstEdges)))
    && |res.mstEdges| <= res.operations
  }

  /** `runPrim`: grow a tree from the first listed vertex, polling one
      minimum-weight queued edge per iteration until the queue is empty or
      as many vertices are visited as are listed. With no listed vertex the
      Java code throws, which is the `NullStartNode` failure here. On
      success the result is a tree grown from `nodes[0]` out of oriented
      copies of input edges, a forest of at most |distinct vertices| - 1
      edges whose cost is their wrapped sum, and it spans the component of
      `nodes[0]`: no input edge leaves it. */
  method RunPrim<V(==,!new)>(nodes: seq<V>, edges: seq<Edge<V>>) returns (r: Result<MstResult<V>, PrimError>)
    requires ValidateEdges(nodes, edges)
    ensures r.Failure? <==> |nodes| == 0
    ensures r.Success? ==> GrownFrom(nodes[0], r.value.mstEdges)
    ensures r.Success? ==> forall k :: 0 <= k < |r.value.mstEdges| ==>
              r.value.mstEdges[k] in edges || Reversed(r.value.mstEdges[k]) in edges
    ensures r.Success? ==> r.value.totalCost == Wrap(WeightSum(r.value.mstEdges))
    ensures r.Success? ==> ValidateEdges(nodes, r.value.mstEdges) && IsForest(nodes, r.value.mstEdges)
    ensures r.Success? ==> |r.value.mstEdges| <= |NodeSet(nodes)| - 1
    ensures r.Success? ==> forall i :: 0 <= i < |edges| ==>
              (edges[i].from in Reached(nodes[0], r.value.mstEdges) <==> edges[i].to in Reached(nodes[0], r.value.mstEdges))
    ensures r.Success? ==> |r.value.mstEdges| <= r.value.operations
    ensures r.Success? ==> PrimTree(nodes, edges, r.value)
  {
    var adj := BuildAdjacency(nodes, edges);
    var start := SelectStartNode(nodes);
    if start.None? {
      return Failure(NullStartNode);
    }
    var root := start.value;
    var s, ops := Grow(nodes, edges, adj, root);
    PrimFinish(nodes, edges, adj, root, s);
    r := Success(MstResult(s.mst, s.cost, ops));
  }

  /** The loop of `runPrim` from the start node: visit `root`, queue its
      adjacency list, then poll and count one edge per iteration until the
      queue is empty or as many vertices are visited as are listed. */
  method Grow<V(==,!new)>(nodes: seq<V>, edges: seq<Edge<V>>, adj: map<V, seq<Edge<V>>>, root: V) returns (s: Search<V>, ops: nat)
    requires Adjacency(nodes, edges, adj) && root in adj
    ensures Searching(nodes, edges, adj, root, s)
    ensures !(|s.pq| > 0 && |s.visited| < |nodes|)
    ensures |s.mst| <= ops
  {
    s := Search(multiset(adj[root]), {root}, [], 0);
    StartSearching(nodes, edges, adj, root);
    ops := 0;
    while |s.pq| > 0 && |s.visited| < |nodes|
      invariant Searching(nodes, edges, adj, root, s)
      invariant |s.mst| <= ops
      decreases |nodes| - |s.visited|, |s.pq|
    {
      var polled, accepted;
      ghost var before := s;
      s, polled, accepted := PollStep(nodes, edges, adj, root, s);
      if accepted {
        VisitOne(before.visited, polled.to);
      }
      ops := ops + 1;
    }
  }

  /** What the invariant gives once the loop is over: the tree's edges are
      oriented input edges joining listed vertices, form a forest of at most
      |distinct vertices| - 1 edges, cost their wrapped sum, and no input edge
      leaves the tree. */
  lemma {:induction false} PrimFinish<V(!new)>(nodes: seq<V>, edges: seq<Edge<V>>, adj: map<V, seq<Edge<V>>>, root: V, s: Search<V>)
    requires Searching(nodes, edges, adj, root, s) && root in nodes
    requires |s.pq| == 0 || |s.visited| >= |nodes|
    ensures GrownFrom(root, s.mst)
    ensures forall k :: 0 <= k < |s.mst| ==> s.mst[k] in edges || Reversed(s.mst[k]) in edges
    ensures s.cost == Wrap(WeightSum(s.mst))
    ensures ValidateEdges(nodes, s.mst) && IsForest(nodes, s.mst)
    ensures |s.mst| <= |NodeSet(nodes)| - 1
    ensures forall i :: 0 <= i < |edges| ==>
              (edges[i].from in Reached(root, s.mst) <==> edges[i].to in Reached(root, s.mst))
  {
    SearchDone(nodes, edges, adj, root, s);
    forall k | 0 <= k < |s.mst|
      ensures s.mst[k].from in nodes && s.mst[k].to in nodes
    {
      assert s.mst[k].from in Reached(root, s.mst[..k]) && s.mst[k].to !in Reached(root, s.mst[..k]) by {
        assert Grows(root, s.mst, k);
      }
      ReachedPrefix(root, s.mst, k);
    }
    GrownIsForest(nodes, root, s.mst);
    GrownSize(root, s.mst);
    SubsetSize(s.visited, NodeSet(nodes));
  }

  /** The tree spanned by a prefix of a grown tree, together with the next
      edge's destination, lies inside the whole tree. */
  lemma {:induction false} ReachedPrefix<V(!new)>(root: V, es: seq<Edge<V>>, k: nat)
    requires k < |es|
    ensures Reached(root, es[..k]) + {es[k].to} <= Reached(root, es)
    decreases |es|
  {
    if k < |es| - 1 {
      var pre := es[..|es| - 1];
      assert pre[..k] == es[..k] && pre[k] == es[k];
      ReachedPrefix(root, pre, k);
    } else {
      assert es[..k] == es[..|es| - 1];
    }
  }

  /** When the loop of `runPrim` stops, with the queue empty or as many
      visited vertices as listed ones, every input edge has both endpoints in
      the tree or neither. */
  lemma {:induction false} SearchDone<V(!new)>(nodes: seq<V>, edges: seq<Edge<V>>, adj: map<V, seq<Edge<V>>>, root: V, s: Search<V>)
    requires Searching(nodes, edges, adj, root, s)
    requires |s.pq| == 0 || |s.visited| >= |nodes|
    ensures forall i :: 0 <= i < |edges| ==> (edges[i].from in s.visited <==> edges[i].to in s.visited)
  {
    if |s.pq| > 0 {
      NodeSetSize(nodes);
      assert s.visited <= NodeSet(nodes);
      SubsetFull(s.visited, NodeSet(nodes));
    }
  }

  /** A subset at least as large as its superset is all of it. */
  lemma {:induction false} SubsetFull<V(!new)>(a: set<V>, b: set<V>)
    requires a <= b && |a| >= |b|
    ensures a == b
  {
    if a != b {
      var x :| x in b && x !in a;
      SubsetSize(a, b - {x});
    }
  }

  /** A subset is no larger than its superset. */
  lemma {:induction false} SubsetSize<V(!new)>(a: set<V>, b: set<V>)
    requires a <= b
    ensures |a| <= |b|
    decreases |a|
  {
    if a != {} {
      var x :| x in a;
      SubsetSize(a - {x}, b - {x});
    }
  }
}

=== FILE: results.dfy ===
/** The record `Result.java` of one engine's run, without its wall-clock
    field. */
module Results {
  import opened JavaInt
  import opened Edges

  /** The accepted edges in acceptance order, their total cost as a Java
      `int`, and the engine's operation count. */
  datatype MstResult<V> = MstResult(mstEdges: seq<Edge<V>>, totalCost: Int32, operations: nat)
}

=== FILE: stable_sort.dfy ===
/** `edges.sort(Comparator.comparingInt(e -> e.getWeight()))` in `runKruskal`:
    a stable sort by weight. The library's algorithm is not modelled; the
    insertion sort below is one stable sort by weight, and `SortUnique` shows
    that every sequence sorted by weight that keeps the input order among
    equal weights is this one. */
module StableSort {
  import opened JavaInt
  import opened Edges

  /** Weights never decrease along `s`. */
  ghost predicate Sorted<V(!new)>(s: seq<Edge<V>>)
  {
    forall i, j :: 0 <= i < j < |s| ==> s[i].weight <= s[j].weight
  }

  /** The edges of `s` with weight `w`, in their order in `s`. */
  function WithWeight<V(==,!new)>(s: seq<Edge<V>>, w: Int32): (r: seq<Edge<V>>)
    ensures forall x :: x in r ==> x in s && x.weight == w
    ensures |r| <= |s|
  {
    if |s| == 0 then []
    else if s[|s| - 1].weight == w then WithWeight(s[..|s| - 1], w) + [s[|s| - 1]]
    else WithWeight(s[..|s| - 1], w)
  }

  /** Filtering distributes over concatenation. */
  lemma {:induction false} WithWeightAppend<V(!new)>(a: seq<Edge<V>>, b: seq<Edge<V>>, w: Int32)
    ensures WithWeight(a + b, w) == WithWeight(a, w) + WithWeight(b, w)
  {
    if |b| == 0 {
      assert a + b == a;
    } else {
      var ab := a + b;
      assert ab[..|ab| - 1] == a + b[..|b| - 1];
      WithWeightAppend(a, b[..|b| - 1], w);
    }
  }

  /** `e` placed into sorted `s` after every edge of weight at most its own. */
  function Insert<V(==,!new)>(s: seq<Edge<V>>, e: Edge<V>): (r: seq<Edge<V>>)
    requires Sorted(s)
    ensures Sorted(r)
    ensures multiset(r) == multiset(s) + multiset{e}
  {
    if |s| == 0 then [e]
    else
      var pre := s[..|s| - 1];
      var last := s[|s| - 1];
      assert s == pre + [last];
      if last.weight <= e.weight then s + [e]
      else
        var q := Insert(pre, e);
        InsertBelow(s, e, q);
        q + [last]
  }

  /** What `Insert` puts before the last edge of `s`, when that edge is
      heavier than `e`, is no heavier than it. */
  lemma InsertBelow<V(!new)>(s: seq<Edge<V>>, e: Edge<V>, q: seq<Edge<V>>)
    requires Sorted(s) && |s| > 0 && e.weight < s[|s| - 1].weight
    requires multiset(q) == multiset(s[..|s| - 1]) + multiset{e}
    ensures forall i :: 0 <= i < |q| ==> q[i].weight <= s[|s| - 1].weight
  {
    var pre := s[..|s| - 1];
    forall i | 0 <= i < |q|
      ensures q[i].weight <= s[|s| - 1].weight
    {
      var x := q[i];
      assert x in multiset(q);
      if x != e {
        assert x in multiset(pre);
        var k :| 0 <= k < |pre| && pre[k] == x;
        assert s[k] == x;
      }
    }
  }

  /** Insertion keeps every weight class in order and puts `e` at the end of
      its own. */
  lemma {:induction false} InsertWithWeight<V(!new)>(s: seq<Edge<V>>, e: Edge<V>, w: Int32)
    requires Sorted(s)
    ensures WithWeight(Insert(s, e), w) == WithWeight(s, w) + (if e.weight == w then [e] else [])
  {
    if |s| > 0 {
      var pre := s[..|s| - 1];
      var last := s[|s| - 1];
      var tail := if e.weight == w then [e] else [];
      if last.weight <= e.weight {
        assert (s + [e])[..|s|] == s;
      } else {
        InsertWithWeight(pre, e, w);
        var q := Insert(pre, e);
        var r := q + [last];
        assert r[..|r| - 1] == q;
        assert s[..|s| - 1] == pre;
        if last.weight == w {
          calc {
            WithWeight(r, w);
            WithWeight(q, w) + [last];
            WithWeight(pre, w) + [last];
            WithWeight(s, w);
          }
        } else {
          calc {
            WithWeight(r, w);
            WithWeight(q, w);
            WithWeight(pre, w) + tail;
            WithWeight(s, w) + tail;
          }
        }
      }
    }
  }

  /** `InsertWithWeight` for all weights at once. */
  lemma InsertAllWeights<V(!new)>(s: seq<Edge<V>>, e: Edge<V>)
    requires Sorted(s)
    ensures forall w :: WithWeight(Insert(s, e), w) == WithWeight(s, w) + (if e.weight == w then [e] else [])
  {
    forall w {
      InsertWithWeight(s, e, w);
    }
  }

  /** The stable sort by weight. */
  function SortByWeight<V(==,!new)>(es: seq<Edge<V>>): (r: seq<Edge<V>>)
    ensures Sorted(r)
    ensures multiset(r) == multiset(es)
    ensures forall w :: WithWeight(r, w) == WithWeight(es, w)
  {
    if |es| == 0 then []
    else
      var pre := es[..|es| - 1];
      var e := es[|es| - 1];
      assert es == pre + [e];
      InsertAllWeights(SortByWeight(pre), e);
      Insert(SortByWeight(pre), e)
  }

  /** Two sequences sorted by weight that agree on the order of every weight
      class are equal. */
  lemma {:induction false} SortedEqual<V(!new)>(a: seq<Edge<V>>, b: seq<Edge<V>>)
    requires Sorted(a) && Sorted(b)
    requires forall w :: WithWeight(a, w) == WithWeight(b, w)
    ensures a == b
    decreases |a|
  {
    if |a| > 0 && |b| > 0 {
      var a', b' := a[..|a| - 1], b[..|b| - 1];
      SameLastWeight(a, b);
      SameLast(a, b, a', b');
      SortedPrefix(a, |a| - 1);
      SortedPrefix(b, |b| - 1);
      SortedEqual(a', b');
      assert a == a' + [a[|a| - 1]] && b == b' + [b[|b| - 1]];
    } else {
      LastFiltered(a);
      LastFiltered(b);
    }
  }

  /** The last edge of a sequence is in its own weight class. */
  lemma LastFiltered<V(!new)>(s: seq<Edge<V>>)
    ensures |s| > 0 ==> s[|s| - 1] in WithWeight(s, s[|s| - 1].weight)
  {
  }

  /** Under the hypotheses of `SortedEqual`, both sequences end with an
      edge of the same, heaviest, weight. */
  lemma SameLastWeight<V(!new)>(a: seq<Edge<V>>, b: seq<Edge<V>>)
    requires Sorted(a) && Sorted(b) && |a| > 0 && |b| > 0
    requires forall w :: WithWeight(a, w) == WithWeight(b, w)
    ensures a[|a| - 1].weight == b[|b| - 1].weight
  {
    var x, y := a[|a| - 1], b[|b| - 1];
    LastFiltered(a);
    LastFiltered(b);
    assert x in WithWeight(b, x.weight);
    assert y in WithWeight(a, y.weight);
    SortedLast(a, y);
    SortedLast(b, x);
  }

  /** Two sequences that agree on every weight class and end with edges of
      one weight end with the same edge, and what precedes it again agrees
      on every weight class. */
  lemma SameLast<V(!new)>(a: seq<Edge<V>>, b: seq<Edge<V>>, a': seq<Edge<V>>, b': seq<Edge<V>>)
    requires |a| > 0 && |b| > 0 && a[|a| - 1].weight == b[|b| - 1].weight
    requires forall w :: WithWeight(a, w) == WithWeight(b, w)
    requires a' == a[..|a| - 1] && b' == b[..|b| - 1]
    ensures a[|a| - 1] == b[|b| - 1]
    ensures forall w :: WithWeight(a', w) == WithWeight(b', w)
  {
    var x, y := a[|a| - 1], b[|b| - 1];
    var m := x.weight;
    var fa, fb := WithWeight(a', m), WithWeight(b', m);
    assert WithWeight(a, m) == fa + [x];
    assert WithWeight(b, m) == fb + [y];
    assert x == y && fa == fb by {
      assert |fa| == |fb|;
      assert (fa + [x])[..|fa|] == fa && (fb + [y])[..|fb|] == fb;
      assert (fa + [x])[|fa|] == x && (fb + [y])[|fb|] == y;
    }
    forall w
      ensures WithWeight(a', w) == WithWeight(b', w)
    {
      if w != m {
        assert WithWeight(a, w) == WithWeight(a', w);
        assert WithWeight(b, w) == WithWeight(b', w);
      }
    }
  }

  /** A prefix of a sorted sequence is sorted. */
  lemma SortedPrefix<V(!new)>(s: seq<Edge<V>>, k: nat)
    requires Sorted(s) && k <= |s|
    ensures Sorted(s[..k])
  {
  }

  /** No edge of a sorted sequence is heavier than its last one. */
  lemma SortedLast<V(!new)>(s: seq<Edge<V>>, x: Edge<V>)
    requires Sorted(s) && x in s
    ensures x.weight <= s[|s| - 1].weight
  {
    var k :| 0 <= k < |s| && s[k] == x;
  }

  /** Any stable sort by weight returns `SortByWeight`'s result. */
  lemma SortUnique<V(!new)>(es: seq<Edge<V>>, t: seq<Edge<V>>)
    requires Sorted(t)
    requires forall w :: WithWeight(t, w) == WithWeight(es, w)
    ensures t == SortByWeight(es)
  {
    SortedEqual(t, SortByWeight(es));
  }
}

=== FILE: union_find.dfy ===
/** The disjoint-set structure `Kruskal.UnionFind`: a parent map and a rank
    map, path compression in `find`, union by rank in `union`, and a counter
    of calls. The reasoning is stated over the two maps themselves; the
    `UnionFind<V>` record only bundles them with the counter. */
module DisjointSet {
  /** A record of two maps and the `operations` counter. It is generic in
      the maps' types, and `UnionFind<V>` fixes them, rather than declaring
      `map<V, V>` and `map<V, nat>` fields directly: a datatype with
      map-typed fields gives the solver size-ordering facts about every
      entry of those maps, which makes the proofs below markedly more
      expensive, while the generic record carries none. */
  datatype Record<P, R> = UnionFind(parent: P, rank: R, operations: nat)

  /** The structure's state: `parent`, `rank` and the `operations` counter. */
  type UnionFind<V> = Record<map<V, V>, map<V, nat>>

  /** What a `find` call leaves behind: the compressed structure and the root. */
  datatype Found<V> = Found(uf: UnionFind<V>, root: V)

  /** `parent.get(v)`. Specifications read parents through this function so
      that the solver only follows parent links the proof itself mentions. */
  function Parent<V(==,!new)>(p: map<V, V>, v: V): V
    requires v in p
  {
    p[v]
  }

  /** The shape union by rank keeps: both maps have the same keys, parents are
      keys, and rank strictly grows from a non-root vertex to its parent. The
      last clause is what makes every walk to a root finite. */
  ghost predicate Valid<V(!new)>(p: map<V, V>, r: map<V, nat>)
  {
    && (forall v :: v in p <==> v in r)
    && forall v {:trigger Parent(p, v)} :: v in p ==>
         && Parent(p, v) in p
         && (Parent(p, v) != v ==> r[v] < r[Parent(p, v)])
  }

  /** `Valid` for the maps of a whole structure. */
  ghost predicate Wf<V(!new)>(uf: UnionFind<V>)
  {
    Valid(uf.parent, uf.rank)
  }

  /** The vertices ranked strictly above `v`; it shrinks along every parent
      step, which bounds the walk to a root. */
  function Above<V(==,!new)>(r: map<V, nat>, v: V): set<V>
    requires v in r
  {
    set u | u in r && r[u] > r[v]
  }

  lemma AboveShrinks<V(!new)>(p: map<V, V>, r: map<V, nat>, v: V)
    requires Valid(p, r) && v in p && Parent(p, v) != v
    ensures Above(r, Parent(p, v)) < Above(r, v)
  {
    assert Parent(p, v) in Above(r, v);
  }

  /** The representative of `v`: the end of its parent chain, read without
      compressing anything. It is a root and, unless it is `v` itself, it
      outranks `v`. */
  function Root<V(==,!new)>(p: map<V, V>, r: map<V, nat>, v: V): (x: V)
    requires Valid(p, r) && v in p
    ensures x in p && p[x] == x
    ensures x != v ==> r[v] < r[x]
    decreases Above(r, v)
  {
    if Parent(p, v) == v then v
    else
      AboveShrinks(p, r, v);
      Root(p, r, Parent(p, v))
  }

  /** The number of parent steps from `v` to its root. */
  function Depth<V(==,!new)>(p: map<V, V>, r: map<V, nat>, v: V): nat
    requires Valid(p, r) && v in p
    decreases Above(r, v)
  {
    if Parent(p, v) == v then 0
    else
      AboveShrinks(p, r, v);
      1 + Depth(p, r, Parent(p, v))
  }

  /** The constructor: every listed vertex is its own parent with rank 0, and
      nothing else is a key, so each vertex starts alone in its class. */
  function Init<V(==,!new)>(vertices: seq<V>): (uf: UnionFind<V>)
    ensures Wf(uf)
    ensures forall v :: v in uf.parent <==> v in vertices
    ensures forall v :: v in vertices ==> Parent(uf.parent, v) == v && uf.rank[v] == 0
    ensures forall x :: x in vertices ==> Root(uf.parent, uf.rank, x) == x
    ensures uf.operations == 0
  {
    UnionFind(map v | v in vertices :: v, map v | v in vertices :: 0, 0)
  }

  /** `p1` differs from `p0` only by re-pointing vertices at their `p0` roots. */
  ghost predicate Compresses<V(!new)>(p0: map<V, V>, r: map<V, nat>, p1: map<V, V>)
    requires Valid(p0, r)
  {
    && (forall v :: v in p1 <==> v in p0)
    && forall u {:trigger Parent(p1, u)} :: u in p0 ==>
         Parent(p1, u) == Parent(p0, u) || Parent(p1, u) == Root(p0, r, u)
  }

  /** The vertices on the walk from `v` up to its root, both ends included:
      the vertices a `find(v)` re-points. */
  ghost function Path<V(!new)>(p: map<V, V>, r: map<V, nat>, v: V): set<V>
    requires Valid(p, r) && v in p
    decreases Above(r, v)
  {
    if Parent(p, v) == v then {v}
    else
      AboveShrinks(p, r, v);
      {v} + Path(p, r, Parent(p, v))
  }

  /** `find(v)` with path compression. It returns the root of `v`, re-points
      `v` (and, through the recursion, every vertex on its path) straight at
      that root, and counts one operation per call, recursive calls included.
      No rank changes, and exactly the vertices on the walk from `v` to its
      root are re-pointed: every other parent keeps its old value. */
  function Find<V(==,!new)>(uf: UnionFind<V>, v: V): (r: Found<V>)
    requires Wf(uf) && v in uf.parent
    ensures Wf(r.uf)
    ensures r.root == Root(uf.parent, uf.rank, v)
    ensures r.uf.rank == uf.rank
    ensures Compresses(uf.parent, uf.rank, r.uf.parent)
    ensures Parent(r.uf.parent, v) == r.root
    ensures forall x {:trigger Parent(r.uf.parent, x)} :: x in uf.parent ==>
              Parent(r.uf.parent, x) == if x in Path(uf.parent, uf.rank, v) then r.root else Parent(uf.parent, x)
    ensures r.uf.operations == uf.operations + Depth(uf.parent, uf.rank, v) + 1
    decreases Above(uf.rank, v)
  {
    var counted := uf.(operations := uf.operations + 1);
    var p := Parent(uf.parent, v);
    if p == v then Found(counted, v)
    else
      AboveShrinks(uf.parent, uf.rank, v);
      var f := Find(counted, p);
      Repoint(uf.parent, uf.rank, f.uf.parent, v);
      var q := f.uf.parent[v := f.root];
      assert Path(uf.parent, uf.rank, v) == {v} + Path(counted.parent, counted.rank, p);
      assert forall x :: x in uf.parent ==>
        Parent(q, x) == if x in Path(uf.parent, uf.rank, v) then f.root else Parent(uf.parent, x) by {
        forall x | x in uf.parent && x != v
          ensures Parent(q, x) == Parent(f.uf.parent, x)
        {
        }
      }
      Found(f.uf.(parent := q), f.root)
  }

  /** One compression step: pointing `v` at its root keeps a compression of
      `p0` valid and a compression of `p0`. */
  lemma Repoint<V(!new)>(p0: map<V, V>, r: map<V, nat>, p1: map<V, V>, v: V)
    requires Valid(p0, r) && Valid(p1, r) && v in p0
    requires Compresses(p0, r, p1)
    ensures Valid(p1[v := Root(p0, r, v)], r)
    ensures Compresses(p0, r, p1[v := Root(p0, r, v)])
  {
    var g := p1[v := Root(p0, r, v)];
    forall u | u in g
      ensures Parent(g, u) in g && (Parent(g, u) != u ==> r[u] < r[Parent(g, u)])
      ensures Parent(g, u) == Parent(p0, u) || Parent(g, u) == Root(p0, r, u)
    {
      if u != v {
        assert Parent(g, u) == Parent(p1, u);
      }
    }
  }

  /** Re-pointing vertices at their own roots changes no vertex's root. */
  lemma {:induction false} CompressedRoot<V(!new)>(p0: map<V, V>, r: map<V, nat>, p1: map<V, V>, x: V)
    requires Valid(p0, r) && Valid(p1, r) && Compresses(p0, r, p1)
    requires x in p0
    ensures Root(p1, r, x) == Root(p0, r, x)
    decreases Above(r, x)
  {
    var q := Parent(p1, x);
    if q != x {
      AboveShrinks(p1, r, x);
      CompressedRoot(p0, r, p1, q);
    }
  }

  /** Path compression leaves the partition unchanged: after `find(v)` every
      vertex has the root it had before. */
  lemma FindKeepsRoots<V(!new)>(uf: UnionFind<V>, v: V)
    requires Wf(uf) && v in uf.parent
    ensures forall x {:trigger Root(Find(uf, v).uf.parent, Find(uf, v).uf.rank, x)} :: x in uf.parent ==>
              Root(Find(uf, v).uf.parent, Find(uf, v).uf.rank, x) == Root(uf.parent, uf.rank, x)
  {
    var g := Find(uf, v).uf;
    forall x | x in uf.parent
      ensures Root(g.parent, g.rank, x) == Root(uf.parent, uf.rank, x)
    {
      CompressedRoot(uf.parent, uf.rank, g.parent, x);
    }
  }

  /** Hanging root `b` under root `a`, with `a`'s rank possibly raised so
      that it stays above `b`'s, keeps the structure valid. */
  lemma LinkValid<V(!new)>(p: map<V, V>, r: map<V, nat>, r1: map<V, nat>, a: V, b: V)
    requires Valid(p, r) && a in p && b in p && a != b
    requires Parent(p, a) == a && Parent(p, b) == b
    requires forall v :: v in r1 <==> v in r
    requires r1[a] >= r[a] && r[b] < r1[a]
    requires forall u :: u in r && u != a ==> r1[u] == r[u]
    ensures Valid(p[b := a], r1)
  {
    var q := p[b := a];
    forall v | v in q
      ensures Parent(q, v) in q && (Parent(q, v) != v ==> r1[v] < r1[Parent(q, v)])
    {
      if v != b {
        assert Parent(q, v) == Parent(p, v);
      }
    }
  }

  /** After the link, exactly the class of `b` has root `a`. */
  lemma {:induction false} LinkedRoot<V(!new)>(p: map<V, V>, r: map<V, nat>, r1: map<V, nat>, a: V, b: V, x: V)
    requires Valid(p, r) && Valid(p[b := a], r1) && a in p && b in p && a != b
    requires Parent(p, a) == a && Parent(p, b) == b
    requires x in p
    ensures Root(p[b := a], r1, x) == (if Root(p, r, x) == b then a else Root(p, r, x))
    decreases Above(r, x)
  {
    var q := p[b := a];
    if x == b {
      assert Parent(q, b) == a && Parent(q, a) == a;
    } else if Parent(p, x) == x {
      assert Parent(q, x) == x;
    } else {
      assert Parent(q, x) == Parent(p, x);
      AboveShrinks(p, r, x);
      LinkedRoot(p, r, r1, a, b, Parent(p, x));
    }
  }

  /** `LinkedRoot` for every vertex at once. */
  lemma LinkedRoots<V(!new)>(p: map<V, V>, r: map<V, nat>, r1: map<V, nat>, a: V, b: V)
    requires Valid(p, r) && Valid(p[b := a], r1) && a in p && b in p && a != b
    requires Parent(p, a) == a && Parent(p, b) == b
    ensures forall x {:trigger Root(p[b := a], r1, x)} :: x in p ==>
              Root(p[b := a], r1, x) == (if Root(p, r, x) == b then a else Root(p, r, x))
  {
    forall x | x in p
      ensures Root(p[b := a], r1, x) == (if Root(p, r, x) == b then a else Root(p, r, x))
    {
      LinkedRoot(p, r, r1, a, b, x);
    }
  }

  /** Compression never lengthens a path: each vertex is at most as deep
      afterwards as before. */
  lemma {:induction false} CompressedDepth<V(!new)>(p0: map<V, V>, r: map<V, nat>, p1: map<V, V>, x: V)
    requires Valid(p0, r) && Valid(p1, r) && Compresses(p0, r, p1)
    requires x in p0
    ensures Depth(p1, r, x) <= Depth(p0, r, x)
    decreases Above(r, x)
  {
    var q := Parent(p1, x);
    if q != x {
      AboveShrinks(p1, r, x);
      if q == Parent(p0, x) {
        AboveShrinks(p0, r, x);
        CompressedDepth(p0, r, p1, q);
      } else {
        var root := Root(p0, r, x);
        assert Parent(p1, root) == root;
      }
    }
  }

  /** The linking step of `union` on two roots `a` and `b` (already found):
      the lower-ranked root goes under the higher-ranked one, and on a tie
      `b` goes under `a` and `a`'s rank grows by one. */
  function Link<V(==,!new)>(s: UnionFind<V>, a: V, b: V): (r: UnionFind<V>)
    requires Wf(s) && a in s.parent && b in s.parent
    requires Parent(s.parent, a) == a && Parent(s.parent, b) == b
    ensures Wf(r)
    ensures forall x :: x in r.parent <==> x in s.parent
    ensures r.operations == s.operations
    ensures var w := if a != b && s.rank[a] < s.rank[b] then b else a;
      forall x {:trigger Root(r.parent, r.rank, x)} :: x in s.parent ==>
        Root(r.parent, r.rank, x) ==
          (if Root(s.parent, s.rank, x) == a || Root(s.parent, s.rank, x) == b then w else Root(s.parent, s.rank, x))
    ensures r.rank == (if a != b && s.rank[a] == s.rank[b] then s.rank[a := s.rank[a] + 1] else s.rank)
    ensures var w := if a != b && s.rank[a] < s.rank[b] then b else a;
      var loser := if w == a then b else a;
      && (a != b ==> Parent(r.parent, loser) == w)
      && forall x {:trigger Parent(r.parent, x)} :: x in s.parent && x != loser ==> Parent(r.parent, x) == Parent(s.parent, x)
  {
    if a == b then s
    else if s.rank[a] < s.rank[b] then
      LinkValid(s.parent, s.rank, s.rank, b, a);
      LinkedRoots(s.parent, s.rank, s.rank, b, a);
      s.(parent := s.parent[a := b])
    else if s.rank[a] > s.rank[b] then
      LinkValid(s.parent, s.rank, s.rank, a, b);
      LinkedRoots(s.parent, s.rank, s.rank, a, b);
      s.(parent := s.parent[b := a])
    else
      var r1 := s.rank[a := s.rank[a] + 1];
      LinkValid(s.parent, s.rank, r1, a, b);
      LinkedRoots(s.parent, s.rank, r1, a, b);
      s.(parent := s.parent[b := a], rank := r1)
  }

  /** Two compressions in a row change no root. */
  lemma TwoCompressions<V(!new)>(p0: map<V, V>, r: map<V, nat>, p1: map<V, V>, p2: map<V, V>)
    requires Valid(p0, r) && Valid(p1, r) && Valid(p2, r)
    requires Compresses(p0, r, p1) && Compresses(p1, r, p2)
    ensures forall x {:trigger Root(p2, r, x)} :: x in p0 ==> Root(p2, r, x) == Root(p0, r, x)
  {
    forall x | x in p0
      ensures Root(p2, r, x) == Root(p0, r, x)
    {
      CompressedRoot(p0, r, p1, x);
      CompressedRoot(p1, r, p2, x);
    }
  }

  /** How many parent steps `find(v)` walks inside `union(u, v)`: the depth
      of `v` once `find(u)` has compressed the path of `u`. */
  ghost function SecondDepth<V(!new)>(uf: UnionFind<V>, u: V, v: V): nat
    requires Wf(uf) && u in uf.parent && v in uf.parent
  {
    var fu := Find(uf.(operations := uf.operations + 1), u);
    Depth(fu.uf.parent, uf.rank, v)
  }

  /** The walk `find(v)` takes inside `union(u, v)`: the path from `v` to
      its root once `find(u)` has compressed the path of `u`. */
  ghost function SecondPath<V(!new)>(uf: UnionFind<V>, u: V, v: V): set<V>
    requires Wf(uf) && u in uf.parent && v in uf.parent
  {
    var fu := Find(uf.(operations := uf.operations + 1), u);
    Path(fu.uf.parent, uf.rank, v)
  }

  /** The state `union(u, v)` links in: the call counted, then `find(u)`
      and `find(v)` in that order. The finds only compress, so every vertex
      keeps its root, `u` and `v` now point at theirs, and the second find
      walks no further than `v` was deep at the start. */
  lemma FoundBoth<V(!new)>(uf: UnionFind<V>, u: V, v: V)
    requires Wf(uf) && u in uf.parent && v in uf.parent
    ensures var fu := Find(uf.(operations := uf.operations + 1), u);
      var fv := Find(fu.uf, v);
      var s := fv.uf;
      && Wf(s)
      && (forall x :: x in s.parent <==> x in uf.parent)
      && s.rank == uf.rank
      && fu.root == Root(uf.parent, uf.rank, u)
      && fv.root == Root(uf.parent, uf.rank, v)
      && Parent(s.parent, fu.root) == fu.root
      && Parent(s.parent, fv.root) == fv.root
      && (forall x {:trigger Root(s.parent, s.rank, x)} :: x in uf.parent ==> Root(s.parent, s.rank, x) == Root(uf.parent, uf.rank, x))
      && uf.operations + 3 <= s.operations <= uf.operations + 3 + Depth(uf.parent, uf.rank, u) + Depth(uf.parent, uf.rank, v)
  {
    var counted := uf.(operations := uf.operations + 1);
    var fu := Find(counted, u);
    var fv := Find(fu.uf, v);
    TwoCompressions(uf.parent, uf.rank, fu.uf.parent, fv.uf.parent);
    CompressedRoot(uf.parent, uf.rank, fu.uf.parent, v);
    CompressedDepth(uf.parent, uf.rank, fu.uf.parent, v);
    assert Parent(fu.uf.parent, fu.root) == fu.root;
  }

  /** The two finds of `union(u, v)` change no parent off their two walks. */
  lemma FoundParents<V(!new)>(uf: UnionFind<V>, u: V, v: V)
    requires Wf(uf) && u in uf.parent && v in uf.parent
    ensures var fu := Find(uf.(operations := uf.operations + 1), u);
      forall x {:trigger Parent(Find(fu.uf, v).uf.parent, x)} :: x in uf.parent && x !in Path(uf.parent, uf.rank, u) && x !in SecondPath(uf, u, v) ==>
        Parent(Find(fu.uf, v).uf.parent, x) == Parent(uf.parent, x)
  {
    var fu := Find(uf.(operations := uf.operations + 1), u);
    var fv := Find(fu.uf, v);
    assert SecondPath(uf, u, v) == Path(fu.uf.parent, fu.uf.rank, v);
    forall x | x in uf.parent && x !in Path(uf.parent, uf.rank, u) && x !in SecondPath(uf, u, v)
      ensures Parent(fv.uf.parent, x) == Parent(uf.parent, x)
    {
      assert Parent(fu.uf.parent, x) == Parent(uf.parent, x);
    }
  }

  /** The count of the two finds of `union(u, v)`: one for the call, one
      per step of each walk plus one per `find`. */
  lemma FoundCount<V(!new)>(uf: UnionFind<V>, u: V, v: V)
    requires Wf(uf) && u in uf.parent && v in uf.parent
    ensures var fu := Find(uf.(operations := uf.operations + 1), u);
      Find(fu.uf, v).uf.operations == uf.operations + 3 + Depth(uf.parent, uf.rank, u) + SecondDepth(uf, u, v)
  {
    var counted := uf.(operations := uf.operations + 1);
    var fu := Find(counted, u);
    assert counted.parent == uf.parent && counted.rank == uf.rank;
    assert fu.uf.operations == uf.operations + 2 + Depth(uf.parent, uf.rank, u);
    assert v in fu.uf.parent && fu.uf.rank == uf.rank;
    var fv := Find(fu.uf, v);
    assert fv.uf.operations == fu.uf.operations + Depth(fu.uf.parent, fu.uf.rank, v) + 1;
    assert SecondDepth(uf, u, v) == Depth(fu.uf.parent, fu.uf.rank, v);
  }

  /** The parents `union(u, v)` leaves in `r`: the root that loses on rank
      (`v`'s root on a tie) now points at the winning root, and every other
      vertex off the walks of the two finds keeps its parent. */
  ghost predicate Relinked<V(!new)>(uf: UnionFind<V>, u: V, v: V, r: UnionFind<V>)
    requires Wf(uf) && u in uf.parent && v in uf.parent
  {
    var a := Root(uf.parent, uf.rank, u);
    var b := Root(uf.parent, uf.rank, v);
    var w := if a != b && uf.rank[a] < uf.rank[b] then b else a;
    var loser := if w == a then b else a;
    && (a != b ==> loser in r.parent && Parent(r.parent, loser) == w)
    && forall x {:trigger Parent(r.parent, x)} :: x in uf.parent && x !in Path(uf.parent, uf.rank, u) + SecondPath(uf, u, v) && x != loser ==>
         x in r.parent && Parent(r.parent, x) == Parent(uf.parent, x)
  }

  /** `Relinked` from what the two finds leave behind: the roots of `u`
      and `v`, unchanged ranks, and parents unchanged off the two walks. */
  lemma RelinkedAfterFinds<V(!new)>(uf: UnionFind<V>, u: V, v: V, s: UnionFind<V>, a: V, b: V, r: UnionFind<V>)
    requires Wf(uf) && u in uf.parent && v in uf.parent
    requires a == Root(uf.parent, uf.rank, u) && b == Root(uf.parent, uf.rank, v)
    requires Wf(s) && s.rank == uf.rank && a in s.parent && b in s.parent
    requires Parent(s.parent, a) == a && Parent(s.parent, b) == b
    requires forall x {:trigger Parent(s.parent, x)} :: x in uf.parent && x !in Path(uf.parent, uf.rank, u) && x !in SecondPath(uf, u, v) ==>
               x in s.parent && Parent(s.parent, x) == Parent(uf.parent, x)
    requires r == Link(s, a, b)
    ensures Relinked(uf, u, v, r)
  {
    LinkedParents(uf.parent, s, a, b, Path(uf.parent, uf.rank, u) + SecondPath(uf, u, v), r);
  }

  /** `union(u, v)`: one operation for the call itself, a `find` of each
      argument (each compressing and counting), then the link of the two
      roots. Afterwards the classes of `u` and `v` share one root, the root
      of higher rank (the root of `u` on a tie), and every other vertex keeps
      its root. */
  function Union<V(==,!new)>(uf: UnionFind<V>, u: V, v: V): (r: UnionFind<V>)
    requires Wf(uf) && u in uf.parent && v in uf.parent
    ensures Wf(r)
    ensures forall x :: x in r.parent <==> x in uf.parent
    ensures var a := Root(uf.parent, uf.rank, u);
      var b := Root(uf.parent, uf.rank, v);
      var w := if a != b && uf.rank[a] < uf.rank[b] then b else a;
      forall x {:trigger Root(r.parent, r.rank, x)} :: x in uf.parent ==>
        Root(r.parent, r.rank, x) ==
          (if Root(uf.parent, uf.rank, x) == a || Root(uf.parent, uf.rank, x) == b then w else Root(uf.parent, uf.rank, x))
    ensures var a := Root(uf.parent, uf.rank, u);
      var b := Root(uf.parent, uf.rank, v);
      r.rank == (if a != b && uf.rank[a] == uf.rank[b] then uf.rank[a := uf.rank[a] + 1] else uf.rank)
    ensures uf.operations + 3 <= r.operations
              <= uf.operations + 3 + Depth(uf.parent, uf.rank, u) + Depth(uf.parent, uf.rank, v)
    ensures r.operations == uf.operations + 3 + Depth(uf.parent, uf.rank, u) + SecondDepth(uf, u, v)
    ensures Relinked(uf, u, v, r)
  {
    var fu := Find(uf.(operations := uf.operations + 1), u);
    var fv := Find(fu.uf, v);
    FoundBoth(uf, u, v);
    FoundCount(uf, u, v);
    FoundParents(uf, u, v);
    var r := Link(fv.uf, fu.root, fv.root);
    RelinkedAfterFinds(uf, u, v, fv.uf, fu.root, fv.root, r);
    r
  }

  /** Which parents linking after the two finds changes: the loser's
      parent becomes the winner, and a parent that the finds left alone
      and that is not the loser's is still the original one. */
  lemma LinkedParents<V(!new)>(p0: map<V, V>, s: UnionFind<V>, a: V, b: V, walks: set<V>, r: UnionFind<V>)
    requires Wf(s) && a in s.parent && b in s.parent
    requires Parent(s.parent, a) == a && Parent(s.parent, b) == b
    requires forall x {:trigger Parent(s.parent, x)} :: x in p0 && x !in walks ==> x in s.parent && Parent(s.parent, x) == Parent(p0, x)
    requires r == Link(s, a, b)
    ensures var w := if a != b && s.rank[a] < s.rank[b] then b else a;
      var loser := if w == a then b else a;
      && (a != b ==> loser in r.parent && Parent(r.parent, loser) == w)
      && forall x {:trigger Parent(r.parent, x)} :: x in p0 && x !in walks && x != loser ==> x in r.parent && Parent(r.parent, x) == Parent(p0, x)
  {
    var w := if a != b && s.rank[a] < s.rank[b] then b else a;
    var loser := if w == a then b else a;
    forall x | x in p0 && x !in walks && x != loser
      ensures x in r.parent && Parent(r.parent, x) == Parent(p0, x)
    {
      assert x in s.parent && Parent(s.parent, x) == Parent(p0, x);
    }
  }
}

=== FILE: wrappers.dfy ===
/** Failure-carrying values used where the Java code returns null or throws. */
module Wrappers {

  /** A value that may be absent; `None` stands for Java's `null`. */
  datatype Option<+T> = None | Some(value: T)

  /** Either a computed value or the error that aborted the computation. */
  datatype Result<+T, +E> = Success(value: T) | Failure(error: E)
}
